=== FILE: README.md ===
# Metrics dashboards engine, in Dafny

This project models the decision logic of the console's metrics dashboards page
(`frontend/public/components/monitoring/dashboards/index.tsx`). Each decision is a pure
Dafny function over immutable data, with contracts and lemmas about it:

- **Query templates.** `evaluateTemplate` substitutes `$name` variables and the two
  synthetic interval variables `$__interval` and `$__rate_interval` into a PromQL query.
- **Variable options.** A variable's query is rewritten from `label_values(A, B)` to
  `count(A) by (B)`. Its options are extracted from the query result, and the dropdown
  decides when to show an error.
- **Panels.** Each panel gets a column span and a width class. Rows are opened, and a
  card shows a visual, a loading placeholder or nothing.
- **The page.** This covers loading and sorting the board catalog, switching boards
  (which rebuilds the variable store), choosing the initial board, and what the page
  shows.

Modules, in dependency order:

| file | module | contents |
|---|---|---|
| `wrappers.dfy` | `Wrappers` | `Option` |
| `strings.dfy` | `Strings` | prefix and substring tests, literal replace-all and split/join, character-by-character (code point) string ordering, ASCII lower-casing |
| `decimal.dfy` | `Decimal` | decimal rendering and parsing of naturals |
| `sorting.dfy` | `Sorting` | a stable sort by string key (lodash `sortBy`, `Array.prototype.sort` on strings) |
| `ordered_map.dfy` | `OrderedMap` | a JavaScript object as an insertion-ordered list of entries |
| `template.dfy` | `Template` | variables and `evaluateTemplate` |
| `variable_options.dfy` | `VariableOptions` | the `label_values` rewrite, option extraction, the variable dropdown |
| `panels.dfy` | `Panels` | `getPanelSpan`, `getPanelClassModifier`, `CardBody`, `Card`, `Board` |
| `boards.dfy` | `Boards` | `changeBoard`, catalog loading, the default-board effect, the page view |

The model follows the code, including these behaviours:

- **Order and prefixes.** Substitution is a left-to-right series of replace-all passes,
  one per store entry, with the two interval entries visited last. A pattern `$k` has no
  word boundary, so `$inst` also rewrites the start of `$instance`, and the result
  depends on the order of the store (`Template.PrefixNameRewritesLongerName`).
- **When loading blocks.** Evaluation gives up only when the entry being visited is
  loading and its pattern occurs in the string *as rewritten so far*. A loading variable
  whose pattern is not in that string, whether from the template or from an earlier
  entry's value, never blocks.
- **Where the rewrite applies.** The `label_values` rewrite is the code's regular
  expression: unanchored, first match only, greedy. It can therefore rewrite a
  `label_values(...)` embedded in a larger query.
- **Parse failures.** A catalog item whose document fails to parse stays in the catalog
  as an empty entry; it is not dropped. The page shows the parse error for the *last*
  such item.
- **Unknown routes.** A route naming a board that does not exist is still selected; it
  is not replaced by the first board. It yields an empty variable store and one empty row.

## Model

| member | source | states |
|---|---|---|
| Template.IntervalMinutes | frontend/public/components/monitoring/dashboards/index.tsx:39-43 | the interval is never below 5 minutes and above that is the whole number of minutes in a thirtieth of the timespan (bracketed between consecutive multiples of 30 minutes of timespan) |
| Template.IntervalText | frontend/public/components/monitoring/dashboards/index.tsx:43 | the interval's text ends in `m`, what precedes it reads back as the interval's number of minutes, and it contains no `$` |
| Decimal.NatToString | frontend/public/components/monitoring/dashboards/index.tsx:43 | the text of a number is a non-empty string of digits with no leading zero for a non-zero number |
| Template.IntervalExamples | frontend/public/components/monitoring/dashboards/index.tsx:39-43 | a one-hour timespan gives `5m` (the floor applies) and a ten-hour one gives `20m` |
| Template.WithIntervals | frontend/public/components/monitoring/dashboards/index.tsx:47 | the object spread keeps every store key in place, leaves entries other than the two interval names untouched, and adds nothing but the interval variable; both interval names then look up the interval variable, every other name what it did before, and when neither was in the store they come last, `__interval` then `__rate_interval` |
| Template.EvaluateTemplate | frontend/public/components/monitoring/dashboards/index.tsx:33-58 | an absent or empty template gives undefined; otherwise the result is undefined exactly when some visited entry is loading and its pattern occurs in the string as rewritten by the earlier entries, and else it is every entry's replace-all applied in order |
| Template.SubstituteIsUnblockedRun | frontend/public/components/monitoring/dashboards/index.tsx:47-56 | the loop with its early exit agrees with the blocking condition and, when it finishes, with the plain sequence of replace-all passes |
| Template.EvaluateIsSubstitute | frontend/public/components/monitoring/dashboards/index.tsx:33-57 | a non-empty template is evaluated by running the loop over the store followed by the two interval entries |
| Template.Substitute | frontend/public/components/monitoring/dashboards/index.tsx:47-56 | a string with no `$` comes out of the loop unchanged whatever the store, and with no loading entry the loop always produces a string |
| Template.NothingLoadingAlwaysResolves | frontend/public/components/monitoring/dashboards/index.tsx:49-53 | with no variable loading, a non-empty template always resolves |
| Template.ReferencedLoadingBlocks | frontend/public/components/monitoring/dashboards/index.tsx:49-53 | a loading variable whose pattern the template contains, with no earlier entry referenced, makes the result undefined |
| Template.SubstituteFirstReferenceLoading | frontend/public/components/monitoring/dashboards/index.tsx:49-53 | the loop stops with undefined at the first referenced entry when that entry is loading |
| Template.SubstituteLoneReference | frontend/public/components/monitoring/dashboards/index.tsx:49-54 | a template that is exactly one variable's pattern becomes that variable's value, with a missing value giving the empty string, when that variable is not loading, its value holds no `$`, and no entry visited before it is referenced in the template |
| Template.IntervalVariablesSubstituted | frontend/public/components/monitoring/dashboards/index.tsx:43-54 | `$__interval` and `$__rate_interval` each evaluate to the interval text when no store name is a prefix of them |
| Template.IntervalPatternsApart | frontend/public/components/monitoring/dashboards/index.tsx:47 | neither interval pattern contains the other, so the two synthetic entries never interfere |
| Template.PrefixNameRewritesLongerName | frontend/public/components/monitoring/dashboards/index.tsx:47-54 | with a variable named `k` and one named `k` plus a suffix, `$` of the longer name becomes the shorter variable's value plus the suffix if `k` comes first, and the longer variable's value if it comes second |
| Strings.ReplaceAllIsJoinOfSplit | frontend/public/components/monitoring/dashboards/index.tsx:54 | a global literal replace is joining, with the replacement, the pieces between the occurrences |
| Strings.SplitPiecesAvoidPattern | frontend/public/components/monitoring/dashboards/index.tsx:54 | no piece between occurrences contains the pattern, so every occurrence is replaced |
| Strings.SplitJoinRoundTrip | frontend/public/components/monitoring/dashboards/index.tsx:54 | joining the pieces with the pattern itself gives back the original string |
| Strings.ReplaceAll | frontend/public/components/monitoring/dashboards/index.tsx:54 | a string in which the pattern does not occur, or a replacement equal to the pattern, leaves the string as it is |
| Strings.Contains | frontend/public/components/monitoring/dashboards/index.tsx:49 | the substring test used for `result.match(re)` holds exactly when the pattern occurs at some position |
| VariableOptions.RewriteLabelValues | frontend/public/components/monitoring/dashboards/index.tsx:142 | a query the pattern cannot match is unchanged; if it can match, the leftmost greedy match exists and the result replaces exactly that span by `count(A) by (B)` |
| VariableOptions.ChosenMatchUnique | frontend/public/components/monitoring/dashboards/index.tsx:142 | the leftmost greedy match is unique, so the rewrite is well defined |
| VariableOptions.MatchAt | frontend/public/components/monitoring/dashboards/index.tsx:142 | at a given `label_values(` the match found is the greedy one: longest first group, then longest second group, within one line |
| VariableOptions.FindMatch | frontend/public/components/monitoring/dashboards/index.tsx:142 | the match found starts at the leftmost position where the pattern can match at all |
| VariableOptions.WithoutLabelValuesUnchanged | frontend/public/components/monitoring/dashboards/index.tsx:142 | a query with no `label_values(` substring passes through unchanged |
| VariableOptions.CanonicalLabelValuesRewritten | frontend/public/components/monitoring/dashboards/index.tsx:142 | `label_values(A, B)` with single-line `A` and `B`, and `B` without `, `, becomes `count(A) by (B)` |
| VariableOptions.LabelValues | frontend/public/components/monitoring/dashboards/index.tsx:157 | the flattened label values number the total label count, are exactly the values of the series' labels, and each label's value sits after all values of earlier series, at its own position within its series |
| VariableOptions.ExtractOptions | frontend/public/components/monitoring/dashboards/index.tsx:157 | the new options are a sorted permutation of the flattened label values, duplicates included; a missing result gives none |
| Sorting.SortStrings | frontend/public/components/monitoring/dashboards/index.tsx:157 | the default sort returns a permutation of its input, of the same length, in ascending string order |
| VariableOptions.ExtractOptionsIsTheSortedArrangement | frontend/public/components/monitoring/dashboards/index.tsx:157 | any sorted permutation of the label values is the extracted option list |
| VariableOptions.RepeatedValuesKept | frontend/public/components/monitoring/dashboards/index.tsx:157 | two series with the same label value give that value twice |
| VariableOptions.DropdownQuery | frontend/public/components/monitoring/dashboards/index.tsx:193-197 | a dropdown's query is its variable's query evaluated against the whole store, and nothing for an unknown name |
| VariableOptions.StartOptionsFetch | frontend/public/components/monitoring/dashboards/index.tsx:137-152 | a fetch starts exactly when the evaluated query is non-empty; it sends the rewritten query with 30 samples and a 30s timeout and marks the variable loading |
| VariableOptions.SettleOptionsFetch | frontend/public/components/monitoring/dashboards/index.tsx:154-165 | success loads the extracted options and clears the error; failure ends loading; the error flag is set after a failure unless it was an abort, in which case it keeps its old value |
| VariableOptions.SelectOption | frontend/public/components/monitoring/dashboards/index.tsx:169-172 | choosing an option patches only that variable's value |
| VariableOptions.LoadingReferenceIssuesNoRequest | frontend/public/components/monitoring/dashboards/index.tsx:137-152 | a variable whose query mentions a loading variable sends no request, when no entry visited before that variable is referenced in the query |
| VariableOptions.VariableDropdownView | frontend/public/components/monitoring/dashboards/index.tsx:174-187 | no dropdown exactly when hidden, or when there are no options and no error; otherwise the items are the options and the selection is the value |
| Panels.TrimEndPercent | frontend/public/components/monitoring/dashboards/index.tsx:351 | trimming gives the prefix with every trailing `%` removed and no `%` left at the end |
| Panels.BreakpointPercent | frontend/public/components/monitoring/dashboards/index.tsx:351 | the breakpoint is the digits before the trailing `%` signs, and 0 when absent or not a number |
| Decimal.ParseNat | frontend/public/components/monitoring/dashboards/index.tsx:351 | a number is read exactly from a non-empty string of decimal digits, and it is the digits' value, most significant first |
| Panels.PanelSpan | frontend/public/components/monitoring/dashboards/index.tsx:347-356 | a non-zero span wins; otherwise a positive breakpoint gives the nearest whole number of the 12 columns to that percentage; otherwise 12 |
| Panels.RoundingNeverTies | frontend/public/components/monitoring/dashboards/index.tsx:353 | twelve times an integer percentage is never a half-column, so rounding has no ties |
| Panels.RoundedColumns | frontend/public/components/monitoring/dashboards/index.tsx:353 | `Math.round(12 * (bp / 100))` is the whole number of columns within half a column of `bp` percent of the grid |
| Panels.ClassModifier | frontend/public/components/monitoring/dashboards/index.tsx:358-374 | the class table is total: 6 gives `max-2`, 2, 4 and 5 give `max-3`, 3 gives `max-4`, and each class is given for exactly those spans |
| Panels.DefaultPanelIsFullWidth | frontend/public/components/monitoring/dashboards/index.tsx:347-374 | a panel with neither span nor breakpoint spans 12 columns and gets `max-1` |
| Panels.PanelClassModifier | frontend/public/components/monitoring/dashboards/index.tsx:347-374 | the class is that of the panel's span; for a panel without a span and a positive breakpoint, 46-54% gives `max-2`, 13-20% and 30-45% `max-3`, 21-29% `max-4`, the rest `max-1` |
| Panels.EvaluatedQueries | frontend/public/components/monitoring/dashboards/index.tsx:307-311 | one evaluated query per target, in target order |
| Panels.CardBody | frontend/public/components/monitoring/dashboards/index.tsx:307-337 | no targets shows nothing; the placeholder shows exactly when some query is unresolved; otherwise a visual shows exactly for the four supported types, fed the first query or all of them in order |
| Panels.EmptyExpressionKeepsLoading | frontend/public/components/monitoring/dashboards/index.tsx:307-315 | a target with an empty or missing expression keeps the card on the loading placeholder |
| Panels.Card | frontend/public/components/monitoring/dashboards/index.tsx:376-409 | a panel renders one tile, with its title, class and card body, per supported panel of its tree with rows opened, in reading order; rows add nothing of their own and other types are dropped |
| Panels.Cards | frontend/public/components/monitoring/dashboards/index.tsx:412-422 | a list of panels renders the tiles of the supported panels of their opened trees, in order |
| Panels.RowSkipsUnsupportedChild | frontend/public/components/monitoring/dashboards/index.tsx:377-389 | a row of a supported, an unsupported and a supported child renders exactly the first and third child's tiles |
| Panels.RenderRows | frontend/public/components/monitoring/dashboards/index.tsx:412-422 | the board draws one line of cards per row, in order |
| Boards.FirstSelected | frontend/public/components/monitoring/dashboards/index.tsx:499 | finds the first option marked selected, and none only when no option is selected |
| Boards.DefaultValue | frontend/public/components/monitoring/dashboards/index.tsx:499 | the default is the first selected option's value unless empty, else the first option's value, else none |
| Boards.DeclaredVariable | frontend/public/components/monitoring/dashboards/index.tsx:494-501 | loading exactly for `query` entries, hidden exactly when `hide` is not 0, the query kept only for `query` entries, options the declared values in order |
| Boards.LastDeclaration | frontend/public/components/monitoring/dashboards/index.tsx:492-503 | the winning declaration of a name is a variable-kind declaration of it with no later variable-kind declaration of the same name, and there is none only if no such declaration exists |
| Boards.AddDeclarations | frontend/public/components/monitoring/dashboards/index.tsx:492-502 | folding declarations into a store keeps the store's keys in their order and appends the names it did not have, in the order of their first variable-kind declaration |
| Boards.AddDeclarationsSpec | frontend/public/components/monitoring/dashboards/index.tsx:491-503 | the fold keeps keys unique, adds exactly the declared names, and leaves each name with its last declaration |
| Boards.BuildVariables | frontend/public/components/monitoring/dashboards/index.tsx:491-503 | the store holds one entry for each name declared as `query` or `interval`, built from its last declaration, and nothing else; the entries are in the order of each name's first such declaration |
| Boards.FirstNamed | frontend/public/components/monitoring/dashboards/index.tsx:489 | finds the first parsed board with the name, and none when no parsed board has it |
| Boards.FindBoard | frontend/public/components/monitoring/dashboards/index.tsx:489 | the board data is that of the first parsed entry with the name, and none for an absent name |
| Boards.ChangeBoard | frontend/public/components/monitoring/dashboards/index.tsx:486-510 | selecting the current board is a no-op; otherwise the board changes and the store is rebuilt from the new board's declarations, leaving catalog, error and loading flag as they were |
| Boards.FirstBoardName | frontend/public/components/monitoring/dashboards/index.tsx:515 | the first entry's name, or none when the first entry failed to parse |
| Boards.SelectInitialBoard | frontend/public/components/monitoring/dashboards/index.tsx:512-517 | with no board chosen and a non-empty catalog, the route's board if given, else the first entry's; otherwise nothing happens |
| Boards.UnknownRouteSelectedWithoutVariables | frontend/public/components/monitoring/dashboards/index.tsx:486-517 | a route naming no parsed board is selected anyway, with an empty variable store |
| Boards.NoRouteSelectsFirstBoard | frontend/public/components/monitoring/dashboards/index.tsx:512-517 | without a route the first catalog board is selected with its declared variables |
| Boards.UnparsedFirstEntrySelectsNothing | frontend/public/components/monitoring/dashboards/index.tsx:512-517 | without a route and with an unparsed first entry, nothing is selected |
| Boards.ParseItem | frontend/public/components/monitoring/dashboards/index.tsx:454-467 | an item yields a board named after it exactly when its first payload parses |
| Boards.SortKey | frontend/public/components/monitoring/dashboards/index.tsx:469-471 | the key is the lower-cased title, and empty for an unparsed entry or a missing title |
| Strings.ToLower | frontend/public/components/monitoring/dashboards/index.tsx:470 | lower-casing keeps the length, maps each character on its own, and leaves no upper-case ASCII letter |
| Boards.LastParseFailure | frontend/public/components/monitoring/dashboards/index.tsx:454-467 | names an item that failed to parse with none failing after it, and is none only when every item parses |
| Boards.LoadCatalog | frontend/public/components/monitoring/dashboards/index.tsx:449-483 | loading ends either way; on success the catalog is a sorted permutation of all parsed items, unparsed ones included, and the error names the last unparsed item; on failure an abort leaves the error and any other failure sets the response's error or the message |
| Boards.CatalogSortIsStable | frontend/public/components/monitoring/dashboards/index.tsx:469-471 | entries with equal keys keep their catalog order |
| Boards.ParseFailureShowsErrorPage | frontend/public/components/monitoring/dashboards/index.tsx:454-521 | one unparsed item leaves an empty entry in a catalog as long as the item list, and the page shows the parse error |
| Boards.MiddleParseFailure | frontend/public/components/monitoring/dashboards/index.tsx:454-521 | of three items with the middle one unparsed, all three stay and the error page names the middle one |
| Boards.BoardRows | frontend/public/components/monitoring/dashboards/index.tsx:523-524 | the board's rows, or its top-level panels as one row when it has none |
| Boards.View | frontend/public/components/monitoring/dashboards/index.tsx:519-556 | the error banner shows exactly when there is a parse error or a non-empty fetch message; otherwise a spinner while loading, else the selected board's rows drawn with the store |
| Boards.BoardWithoutRowsDrawsPanels | frontend/public/components/monitoring/dashboards/index.tsx:523-556 | a board without rows is drawn as the one row of its top-level panels |
| Decimal.ParseNatToString | frontend/public/components/monitoring/dashboards/index.tsx:351 | the decimal text of a number parses back to that number |
| Sorting.SortBy | frontend/public/components/monitoring/dashboards/index.tsx:469-471 | the sort returns a permutation of its input, ordered by key |
| Sorting.SortByStable | frontend/public/components/monitoring/dashboards/index.tsx:469-471 | the sort keeps equal-key elements in their input order |
| Sorting.SortedPermutationUnique | frontend/public/components/monitoring/dashboards/index.tsx:157 | two sorted permutations of the same strings are equal |
| OrderedMap.Put | frontend/public/components/monitoring/dashboards/index.tsx:494 | after assigning a property, the key maps to the new value, every other key to what it did before, and the key set gains just that key |
| OrderedMap.PutAppendsNewKey | frontend/public/components/monitoring/dashboards/index.tsx:494 | assigning to a present key keeps the number of entries; assigning to a new key appends it last |
| OrderedMap.PutInPlace | frontend/public/components/monitoring/dashboards/index.tsx:494 | every existing key keeps its position, and entries under other keys keep their values |
| OrderedMap.PutAddsOnlyEntry | frontend/public/components/monitoring/dashboards/index.tsx:494 | the only entry an assignment can introduce is the assigned key and value |
| OrderedMap.PutKeepsUniqueKeys | frontend/public/components/monitoring/dashboards/index.tsx:494 | assigning never duplicates a key |
| OrderedMap.PutKeySeq | frontend/public/components/monitoring/dashboards/index.tsx:494 | assigning leaves the key order alone when the key is present and otherwise appends the key last |
| OrderedMap.PutTwiceAppends | frontend/public/components/monitoring/dashboards/index.tsx:47 | two assignments under two different absent keys append them in the order assigned |
| OrderedMap.Get | frontend/public/components/monitoring/dashboards/index.tsx:193 | a lookup finds a value exactly for the keys present |
| OrderedMap.GetFindsFirstEntry | frontend/public/components/monitoring/dashboards/index.tsx:193 | the value found is that of the first entry under the key |
| OrderedMap.GetUniqueKey | frontend/public/components/monitoring/dashboards/index.tsx:193 | with unique keys, the value found is that of any entry under the key |

## Left out

- Rendering: React, JSX, hooks, PatternFly components, CSS class strings beyond the width
  modifier, i18n texts, `Helmet`, the Grafana link (`window.SERVER_FLAGS`), and the
  timespan and poll-interval dropdowns (`parsePrometheusDuration` is not part of this
  model).
- I/O: `safeFetch`, `getPrometheusURL`, polling, aborting in-flight requests and
  `history.replace`. A fetch is modelled by its outcome, and a dropdown's effect by the
  request it would send and the store actions it dispatches.
- The reducers behind `patchVariable`, `optionsLoaded` and `patchAllVariables` are not
  part of this model. A board change is taken to replace the variable store wholesale.
- `JSON.parse` is a parameter, `string -> Option<BoardData>`. Only the first payload of an
  item is parsed, as in the code. A document that parses to something other than an
  object is not distinguished.
- Graph legend formatting with `_.template` (lines 286-302), and the graph, stack and
  gradient options passed to the visuals.
- The board dropdown's item map (`boardItems`, line 482), which is only presentation.
- Template.EvaluateTemplate: variable names are assumed to hold no regular-expression
  metacharacters, and values none of the replacement sequences `$$`, `$&`, `` $` `` and
  `$'` (`$1` and other group references stay literal, as the pattern has no group). Under
  those assumptions `new RegExp('\\$' + k, 'g')` and `replace` are a literal replace-all.
  A value holding one of those sequences is expanded by JavaScript: the template `$a-x`
  with `a` set to `$'` gives `-x-x`, where the model gives `$'-x`.
- OrderedMap.Put: JavaScript lists integer-like keys before other keys in an object.
  Beyond 8 entries, an Immutable.js map does not keep insertion order. Both are left out;
  the model keeps every store in insertion order.
- Sorting.SortBy, Sorting.SortStrings: JavaScript compares strings by UTF-16 code unit; the model compares
  whole characters by code point. The two orders differ when a character above U+FFFF
  meets one in U+E000 to U+FFFF: U+FF01 sorts before U+1F600 by code point, but
  JavaScript puts U+1F600 first, because its leading surrogate 0xD83D is below 0xFF01.
- Decimal.ParseNat: reads only non-empty digit strings, where `_.toInteger` also accepts
  signs, spaces, fractions and other number forms (see Panels.BreakpointPercent).
- Decimal.NatToString: always prints digits, where JavaScript prints numbers from 10^21 up
  in exponent form (see Template.IntervalText).
- Strings.ToLower: lower-cases ASCII letters only, where `_.toLower` covers all of
  Unicode.
- Panels.BreakpointPercent: only a breakpoint of decimal digits followed by `%` signs is
  parsed. Signs, spaces, fractions and other JavaScript number forms read as 0, where
  `_.toInteger` would accept them. A `span` is an integer; fractional spans are left out.
- Template.IntervalText: JavaScript would print a number of minutes above 10^21 in
  exponent form; the model always prints digits.
- VariableOptions.VariableDropdownView: `_.zipObject(options, options)` merges duplicate
  options and orders integer-like ones first; the model gives the item set.
- Boards.DeclaredVariable: an option with a missing `value` is not modelled; values are
  strings.

=== FILE: boards.dfy ===
/**
 The dashboards page: loading the board catalog, switching boards (which rebuilds the
 variable store from the board's declared variables), picking the initial board, and
 what the page shows.
 */
module Boards {
  import opened Wrappers
  import opened Strings
  import opened Sorting
  import opened OrderedMap
  import opened Template
  import opened Panels
  import VariableOptions

  // ---------------------------------------------------------------------------
  // Board documents
  // ---------------------------------------------------------------------------

  datatype TemplateOption = TemplateOption(selected: bool, value: string)

  /** One entry of a board's `templating.list`; `hide` is absent or a number. */
  datatype TemplateVariable = TemplateVariable(
    name: string,
    kind: string,
    hide: Option<int>,
    options: seq<TemplateOption>,
    query: Option<string>)

  /** A parsed board document; a missing list stands for an empty one. */
  datatype BoardData = BoardData(
    title: Option<string>,
    rows: seq<Row>,
    panels: seq<Panel>,
    templating: seq<TemplateVariable>)

  datatype Board = Board(name: string, data: BoardData)

  const QueryKind: string := "query"
  const IntervalKind: string := "interval"

  /** Only `query` and `interval` entries become variables. */
  predicate IsVariableKind(kind: string) {
    kind == QueryKind || kind == IntervalKind
  }

  // ---------------------------------------------------------------------------
  // Variables from declarations
  // ---------------------------------------------------------------------------

  /** The index of the first option marked selected, if any. */
  function FirstSelected(opts: seq<TemplateOption>): (r: Option<nat>)
    ensures r.Some? ==> r.value < |opts| && opts[r.value].selected
    ensures r.Some? ==> forall j :: 0 <= j < r.value ==> !opts[j].selected
    ensures r.None? <==> forall j :: 0 <= j < |opts| ==> !opts[j].selected
  {
    if |opts| == 0 then None
    else if opts[0].selected then Some(0)
    else match FirstSelected(opts[1..])
      case None => None
      case Some(i) => Some(i + 1)
  }

  /**
   The default value: the first selected option's value unless that is empty, in which
   case (as when nothing is selected) the first option's value; no options, no value.
   */
  function DefaultValue(opts: seq<TemplateOption>): (r: Option<string>)
    ensures |opts| == 0 ==> r.None?
    ensures FirstSelected(opts).Some? && opts[FirstSelected(opts).value].value != "" ==>
              r == Some(opts[FirstSelected(opts).value].value)
    ensures |opts| > 0 && (FirstSelected(opts).None? || opts[FirstSelected(opts).value].value == "") ==>
              r == Some(opts[0].value)
  {
    match FirstSelected(opts)
    case Some(i) => if opts[i].value != "" then Some(opts[i].value) else Some(opts[0].value)
    case None => if |opts| == 0 then None else Some(opts[0].value)
  }

  /** The store entry built from one declaration. */
  function DeclaredVariable(tv: TemplateVariable): (v: Variable)
    ensures v.isLoading <==> tv.kind == QueryKind
    ensures v.isHidden <==> tv.hide != Some(0)
    ensures tv.kind == QueryKind ==> v.query == tv.query
    ensures tv.kind != QueryKind ==> v.query.None?
    ensures |v.options| == |tv.options|
    ensures forall i :: 0 <= i < |tv.options| ==> v.options[i] == tv.options[i].value
    ensures v.value == DefaultValue(tv.options)
  {
    Variable(
      DefaultValue(tv.options),
      seq(|tv.options|, i requires 0 <= i < |tv.options| => tv.options[i].value),
      if tv.kind == QueryKind then tv.query else None,
      tv.hide != Some(0),
      tv.kind == QueryKind)
  }

  /** Declaration `i` declares `name` with a variable kind. */
  predicate DeclaresAt(list: seq<TemplateVariable>, name: string, i: int) {
    0 <= i < |list| && list[i].name == name && IsVariableKind(list[i].kind)
  }

  /** Declaration `i` is the last one that declares `name` with a variable kind. */
  ghost predicate LastDeclaresAt(list: seq<TemplateVariable>, name: string, i: int) {
    DeclaresAt(list, name, i) && forall j :: i < j < |list| ==> !DeclaresAt(list, name, j)
  }

  /** The last variable-kind declaration of `name`, which is the one that wins. */
  function LastDeclaration(list: seq<TemplateVariable>, name: string): (r: Option<TemplateVariable>)
    ensures r.Some? ==> r.value in list && r.value.name == name && IsVariableKind(r.value.kind)
    ensures r.Some? ==> exists i :: LastDeclaresAt(list, name, i) && list[i] == r.value
    ensures r.None? <==> forall tv :: tv in list ==> tv.name != name || !IsVariableKind(tv.kind)
    decreases |list|
  {
    if |list| == 0 then None
    else match LastDeclaration(list[1..], name)
      case Some(tv) =>
        assert exists i :: LastDeclaresAt(list, name, i) && list[i] == tv by {
          var i :| LastDeclaresAt(list[1..], name, i) && list[1..][i] == tv;
          forall j | i + 1 < j < |list|
            ensures !DeclaresAt(list, name, j)
          {
            assert !DeclaresAt(list[1..], name, j - 1);
          }
          assert LastDeclaresAt(list, name, i + 1);
        }
        Some(tv)
      case None =>
        assert forall tv :: tv in list ==> tv == list[0] || tv in list[1..];
        if list[0].name == name && IsVariableKind(list[0].kind) then
          assert LastDeclaresAt(list, name, 0) by {
            forall j | 0 < j < |list|
              ensures !DeclaresAt(list, name, j)
            {
              assert list[j] in list[1..];
            }
          }
          Some(list[0])
        else None
  }

  /** The names declared with a variable kind. */
  ghost function DeclaredNames(list: seq<TemplateVariable>): set<string> {
    set tv | tv in list && IsVariableKind(tv.kind) :: tv.name
  }

  /**
   The names the declarations bring in, in the order of each one's first variable-kind
   declaration, leaving out the names in `known`.
   */
  function NewNames(known: set<string>, list: seq<TemplateVariable>): seq<string>
    decreases |list|
  {
    if |list| == 0 then []
    else if IsVariableKind(list[0].kind) && list[0].name !in known then
      [list[0].name] + NewNames(known + {list[0].name}, list[1..])
    else NewNames(known, list[1..])
  }

  /**
   Folding the declarations, in order, into a store that starts as `acc`: the store's
   keys keep their places and the new names follow in order of first declaration.
   */
  function AddDeclarations(acc: Variables, list: seq<TemplateVariable>): (r: Variables)
    ensures KeySeq(r) == KeySeq(acc) + NewNames(Keys(acc), list)
    decreases |list|
  {
    if |list| == 0 then acc
    else
      var acc' := if IsVariableKind(list[0].kind) then Put(acc, list[0].name, DeclaredVariable(list[0])) else acc;
      NewNamesStep(acc, list, DeclaredVariable(list[0]));
      AddDeclarations(acc', list[1..])
  }

  /** One step of the fold, assigning `v` to a declared name, keeps that order. */
  lemma NewNamesStep(acc: Variables, list: seq<TemplateVariable>, v: Variable)
    requires |list| > 0
    ensures var acc' := if IsVariableKind(list[0].kind) then Put(acc, list[0].name, v) else acc;
      KeySeq(acc') + NewNames(Keys(acc'), list[1..]) == KeySeq(acc) + NewNames(Keys(acc), list)
  {
    if IsVariableKind(list[0].kind) {
      if list[0].name !in Keys(acc) {
        NewNameAppended(acc, list, v);
      } else {
        KnownNameInPlace(acc, list, v);
        assert Keys(Put(acc, list[0].name, v)) == Keys(acc);
      }
    }
  }

  /** A name not yet in the store is appended and leads the names still to come. */
  lemma NewNameAppended(acc: Variables, list: seq<TemplateVariable>, v: Variable)
    requires |list| > 0 && IsVariableKind(list[0].kind) && list[0].name !in Keys(acc)
    ensures KeySeq(Put(acc, list[0].name, v)) + NewNames(Keys(acc) + {list[0].name}, list[1..])
         == KeySeq(acc) + NewNames(Keys(acc), list)
  {
    var name := list[0].name;
    var later := NewNames(Keys(acc) + {name}, list[1..]);
    PutKeySeq(acc, name, v);
    assert KeySeq(acc) + [name] + later == KeySeq(acc) + ([name] + later);
  }

  /** A name already in the store keeps its place and brings in no new name. */
  lemma KnownNameInPlace(acc: Variables, list: seq<TemplateVariable>, v: Variable)
    requires |list| > 0 && IsVariableKind(list[0].kind) && list[0].name in Keys(acc)
    ensures KeySeq(Put(acc, list[0].name, v)) + NewNames(Keys(acc), list[1..])
         == KeySeq(acc) + NewNames(Keys(acc), list)
  {
    PutKeySeq(acc, list[0].name, v);
  }

  /**
   Folding into a store with unique keys keeps them unique, adds exactly the declared
   names, and leaves each declared name with the variable of its last declaration and
   every other key as it was.
   */
  lemma {:induction false} AddDeclarationsSpec(acc: Variables, list: seq<TemplateVariable>)
    requires UniqueKeys(acc)
    ensures var r := AddDeclarations(acc, list);
      && UniqueKeys(r)
      && Keys(r) == Keys(acc) + DeclaredNames(list)
      && forall name :: Get(r, name) == (match LastDeclaration(list, name)
                                        case Some(tv) => Some(DeclaredVariable(tv))
                                        case None => Get(acc, name))
    decreases |list|
  {
    if |list| > 0 {
      var acc' := if IsVariableKind(list[0].kind) then Put(acc, list[0].name, DeclaredVariable(list[0])) else acc;
      if IsVariableKind(list[0].kind) {
        PutKeepsUniqueKeys(acc, list[0].name, DeclaredVariable(list[0]));
      }
      AddDeclarationsSpec(acc', list[1..]);
      assert forall tv :: tv in list <==> tv == list[0] || tv in list[1..];
      assert DeclaredNames(list) ==
        DeclaredNames(list[1..]) + (if IsVariableKind(list[0].kind) then {list[0].name} else {});
    }
  }

  /**
   The store for a board: one entry per name declared with a variable kind, built from
   the last such declaration of that name, and nothing else.
   */
  function BuildVariables(list: seq<TemplateVariable>): (r: Variables)
    ensures UniqueKeys(r)
    ensures Keys(r) == DeclaredNames(list)
    ensures forall name :: Get(r, name) == (match LastDeclaration(list, name)
                                          case Some(tv) => Some(DeclaredVariable(tv))
                                          case None => None)
    ensures KeySeq(r) == NewNames({}, list)
  {
    AddDeclarationsSpec([], list);
    assert Keys<Variable>([]) == {};
    assert KeySeq<Variable>([]) == [];
    AddDeclarations([], list)
  }

  // ---------------------------------------------------------------------------
  // Page state
  // ---------------------------------------------------------------------------

  /** What the error banner holds: a board that failed to parse, or the fetch's message. */
  datatype PageError = ParseFailed(board: string) | FetchFailed(message: string)

  /**
   The page's state together with the variable store it writes. A catalog entry whose
   document did not parse is kept as `None`.
   */
  datatype PageState = PageState(
    board: Option<string>,
    boards: seq<Option<Board>>,
    error: Option<PageError>,
    isLoading: bool,
    variables: Variables)

  predicate Names(entry: Option<Board>, name: string) {
    entry.Some? && entry.value.name == name
  }

  /** The position of the first parsed board called `name`. */
  function FirstNamed(boards: seq<Option<Board>>, name: string): (r: Option<nat>)
    ensures r.Some? ==> r.value < |boards| && Names(boards[r.value], name)
    ensures r.Some? ==> forall j :: 0 <= j < r.value ==> !Names(boards[j], name)
    ensures r.None? <==> forall j :: 0 <= j < |boards| ==> !Names(boards[j], name)
  {
    if |boards| == 0 then None
    else if Names(boards[0], name) then Some(0)
    else match FirstNamed(boards[1..], name)
      case None => None
      case Some(i) => Some(i + 1)
  }

  /** `_.find(boards, { name })?.data`: the first parsed board with that name. */
  function FindBoard(boards: seq<Option<Board>>, name: Option<string>): (r: Option<BoardData>)
    ensures name.None? ==> r.None?
    ensures name.Some? ==> match FirstNamed(boards, name.value)
                           case None => r.None?
                           case Some(i) => r == Some(boards[i].value.data)
  {
    if name.None? then None
    else match FirstNamed(boards, name.value)
      case None => None
      case Some(i) => Some(boards[i].value.data)
  }

  function Templating(data: Option<BoardData>): seq<TemplateVariable> {
    match data
    case None => []
    case Some(d) => d.templating
  }

  /**
   `changeBoard`: selecting the current board does nothing; any other name becomes the
   board, and the store is replaced by the variables that board declares (none when no
   parsed board has that name). The catalog, the error and the loading flag are untouched.
   */
  function ChangeBoard(st: PageState, newBoard: Option<string>): (r: PageState)
    ensures newBoard == st.board ==> r == st
    ensures newBoard != st.board ==> r.board == newBoard
    ensures newBoard != st.board ==> r.variables == BuildVariables(Templating(FindBoard(st.boards, newBoard)))
    ensures r.boards == st.boards && r.error == st.error && r.isLoading == st.isLoading
  {
    if newBoard == st.board then st
    else st.(board := newBoard, variables := BuildVariables(Templating(FindBoard(st.boards, newBoard))))
  }

  /** A name that JavaScript treats as true: present and non-empty. */
  predicate Truthy(s: Option<string>) {
    s.Some? && s.value != ""
  }

  /** The name of the first catalog entry, absent if it failed to parse. */
  function FirstBoardName(boards: seq<Option<Board>>): (r: Option<string>)
    ensures |boards| > 0 && boards[0].Some? ==> r == Some(boards[0].value.name)
    ensures |boards| == 0 || boards[0].None? ==> r.None?
  {
    if |boards| > 0 && boards[0].Some? then Some(boards[0].value.name) else None
  }

  /**
   The default-board effect: with no board chosen and a non-empty catalog, select the
   board named in the route, or else the first catalog entry's.
   */
  function SelectInitialBoard(st: PageState, route: Option<string>): (r: PageState)
    ensures Truthy(st.board) || |st.boards| == 0 ==> r == st
    ensures !Truthy(st.board) && |st.boards| > 0 && Truthy(route) ==> r == ChangeBoard(st, route)
    ensures !Truthy(st.board) && |st.boards| > 0 && !Truthy(route) ==> r == ChangeBoard(st, FirstBoardName(st.boards))
  {
    if !Truthy(st.board) && |st.boards| > 0 then
      ChangeBoard(st, if Truthy(route) then route else FirstBoardName(st.boards))
    else st
  }

  /** A route naming no parsed board is still selected, with an empty variable store. */
  lemma UnknownRouteSelectedWithoutVariables(st: PageState, route: string)
    requires st.board.None? && |st.boards| > 0 && route != ""
    requires forall i :: 0 <= i < |st.boards| ==> !Names(st.boards[i], route)
    ensures var r := SelectInitialBoard(st, Some(route));
      r.board == Some(route) && r.variables == []
  {
    var r := SelectInitialBoard(st, Some(route));
    assert FindBoard(st.boards, Some(route)).None?;
    assert Keys(r.variables) == {};
  }

  /** Without a route, the first catalog entry is selected and its variables loaded. */
  lemma NoRouteSelectsFirstBoard(st: PageState, b: Board)
    requires st.board.None? && |st.boards| > 0 && st.boards[0] == Some(b)
    ensures var r := SelectInitialBoard(st, None);
      r.board == Some(b.name) && r.variables == BuildVariables(b.data.templating)
  {
    assert Names(st.boards[0], b.name);
  }

  /** If the first catalog entry failed to parse and there is no route, nothing is selected. */
  lemma UnparsedFirstEntrySelectsNothing(st: PageState)
    requires st.board.None? && |st.boards| > 0 && st.boards[0].None?
    ensures SelectInitialBoard(st, None) == st
  {
  }

  // ---------------------------------------------------------------------------
  // Catalog
  // ---------------------------------------------------------------------------

  /** One catalog item: its name and the values of its `data` map, in order. */
  datatype CatalogItem = CatalogItem(name: string, payloads: seq<string>)

  /** The outcome of fetching the catalog. */
  datatype CatalogOutcome =
    | CatalogLoaded(items: seq<CatalogItem>)
    | CatalogFailed(errorName: string, jsonError: Option<string>, message: Option<string>)

  /** The board an item holds, parsing its first payload with `parse`; none if that fails. */
  function ParseItem(item: CatalogItem, parse: string -> Option<BoardData>): (r: Option<Board>)
    ensures r.Some? <==> |item.payloads| > 0 && parse(item.payloads[0]).Some?
    ensures r.Some? ==> r.value == Board(item.name, parse(item.payloads[0]).value)
  {
    if |item.payloads| == 0 then None
    else match parse(item.payloads[0])
      case None => None
      case Some(d) => Some(Board(item.name, d))
  }

  function ParseItems(items: seq<CatalogItem>, parse: string -> Option<BoardData>): (r: seq<Option<Board>>)
    ensures |r| == |items|
    ensures forall i :: 0 <= i < |items| ==> r[i] == ParseItem(items[i], parse)
  {
    seq(|items|, i requires 0 <= i < |items| => ParseItem(items[i], parse))
  }

  /** The sort key: the lower-cased title, and the empty string for a missing one. */
  function SortKey(entry: Option<Board>): (k: string)
    ensures entry.Some? && entry.value.data.title.Some? ==> k == ToLower(entry.value.data.title.value)
    ensures entry.None? || entry.value.data.title.None? ==> k == ""
  {
    match entry
    case None => ""
    case Some(b) => ToLower(b.data.title.GetOr(""))
  }

  /** Each parse failure overwrites the error, so the last failing item is the one named. */
  function LastParseFailure(items: seq<CatalogItem>, parse: string -> Option<BoardData>): (r: Option<string>)
    ensures r.None? <==> forall i :: 0 <= i < |items| ==> ParseItem(items[i], parse).Some?
    ensures r.Some? ==> exists i :: 0 <= i < |items| && items[i].name == r.value && ParseItem(items[i], parse).None? &&
                                    forall j :: i < j < |items| ==> ParseItem(items[j], parse).Some?
  {
    if |items| == 0 then None
    else
      var rest := LastParseFailure(items[1..], parse);
      assert forall j :: 1 <= j < |items| ==> items[j] == items[1..][j - 1];
      if rest.Some? then
        var i :| 0 <= i < |items[1..]| && items[1..][i].name == rest.value && ParseItem(items[1..][i], parse).None? &&
                 forall j :: i < j < |items[1..]| ==> ParseItem(items[1..][j], parse).Some?;
        assert items[i + 1].name == rest.value;
        rest
      else if ParseItem(items[0], parse).None? then Some(items[0].name)
      else None
  }

  /**
   Settling the catalog fetch. Either way loading ends. On success every item is kept,
   sorted by lower-cased title, a failed parse as an empty entry; the error is cleared
   and then set to the last item that failed to parse. On failure the catalog stays, an
   abort leaves the error alone, and any other failure shows the response's `error`
   field if present, else the failure's message.
   */
  function LoadCatalog(st: PageState, outcome: CatalogOutcome, parse: string -> Option<BoardData>): (r: PageState)
    ensures !r.isLoading
    ensures r.board == st.board && r.variables == st.variables
    ensures outcome.CatalogLoaded? ==>
              var parsed := ParseItems(outcome.items, parse);
              && |r.boards| == |outcome.items|
              && multiset(r.boards) == multiset(parsed)
              && SortedBy(r.boards, SortKey)
    ensures outcome.CatalogLoaded? ==>
              (r.error.None? <==> forall i :: 0 <= i < |outcome.items| ==> ParseItem(outcome.items[i], parse).Some?)
    ensures outcome.CatalogLoaded? && r.error.Some? ==>
              r.error.value.ParseFailed? &&
              exists i :: 0 <= i < |outcome.items| && outcome.items[i].name == r.error.value.board &&
                          ParseItem(outcome.items[i], parse).None? &&
                          forall j :: i < j < |outcome.items| ==> ParseItem(outcome.items[j], parse).Some?
    ensures outcome.CatalogFailed? ==> r.boards == st.boards
    ensures outcome.CatalogFailed? && outcome.errorName == VariableOptions.AbortErrorName ==> r.error == st.error
    ensures outcome.CatalogFailed? && outcome.errorName != VariableOptions.AbortErrorName ==>
              (r.error.Some? <==> outcome.jsonError.Some? || outcome.message.Some?)
    ensures outcome.CatalogFailed? && outcome.errorName != VariableOptions.AbortErrorName && outcome.jsonError.Some? ==>
              r.error == Some(FetchFailed(outcome.jsonError.value))
    ensures outcome.CatalogFailed? && outcome.errorName != VariableOptions.AbortErrorName && outcome.jsonError.None? && outcome.message.Some? ==>
              r.error == Some(FetchFailed(outcome.message.value))
  {
    match outcome
    case CatalogLoaded(items) =>
      var error := match LastParseFailure(items, parse)
        case None => None
        case Some(name) => Some(ParseFailed(name));
      st.(isLoading := false, error := error, boards := SortBy(ParseItems(items, parse), SortKey))
    case CatalogFailed(errorName, jsonError, message) =>
      if errorName == VariableOptions.AbortErrorName then st.(isLoading := false)
      else
        var text := if jsonError.Some? then jsonError else message;
        var error := match text
          case None => None
          case Some(m) => Some(FetchFailed(m));
        st.(isLoading := false, error := error)
  }

  /**
   The sort is stable: entries whose titles lower-case alike (all unparsed entries among
   them) keep their catalog order.
   */
  lemma CatalogSortIsStable(st: PageState, items: seq<CatalogItem>, parse: string -> Option<BoardData>, k: string)
    ensures WithKey(LoadCatalog(st, CatalogLoaded(items), parse).boards, SortKey, k) ==
            WithKey(ParseItems(items, parse), SortKey, k)
  {
    SortByStable(ParseItems(items, parse), SortKey, k);
  }

  // ---------------------------------------------------------------------------
  // What the page shows
  // ---------------------------------------------------------------------------

  /** `if (error)`: a parse error always has a message; a fetch error only if non-empty. */
  predicate ShowsError(error: Option<PageError>) {
    match error
    case None => false
    case Some(ParseFailed(_)) => true
    case Some(FetchFailed(m)) => m != ""
  }

  /**
   The rows to draw: the board's rows, or its top-level panels as a single row when it
   has none (an unknown board gives one empty row).
   */
  function BoardRows(data: Option<BoardData>): (rows: seq<Row>)
    ensures data.Some? && |data.value.rows| > 0 ==> rows == data.value.rows
    ensures data.Some? && |data.value.rows| == 0 ==> rows == [Row(data.value.panels)]
    ensures data.None? ==> rows == [Row([])]
  {
    match data
    case None => [Row([])]
    case Some(d) => if |d.rows| == 0 then [Row(d.panels)] else d.rows
  }

  datatype PageView =
    | ErrorView(error: PageError)
    | LoadingView
    | DashboardView(rows: seq<seq<Tile>>)

  /** The page: the error banner if there is one to show, else a spinner or the board. */
  function View(st: PageState, timespan: nat): (v: PageView)
    ensures v.ErrorView? <==> ShowsError(st.error)
    ensures v.ErrorView? ==> st.error == Some(v.error)
    ensures v.LoadingView? <==> !ShowsError(st.error) && st.isLoading
    ensures v.DashboardView? ==> |v.rows| == |BoardRows(FindBoard(st.boards, st.board))|
    ensures v.DashboardView? ==> forall i :: 0 <= i < |v.rows| ==>
              v.rows[i] == Cards(BoardRows(FindBoard(st.boards, st.board))[i].panels, st.variables, timespan)
  {
    if ShowsError(st.error) then ErrorView(st.error.value)
    else if st.isLoading then LoadingView
    else DashboardView(RenderRows(BoardRows(FindBoard(st.boards, st.board)), st.variables, timespan))
  }

  /** A board without rows draws its top-level panels as one row. */
  lemma BoardWithoutRowsDrawsPanels(st: PageState, timespan: nat, d: BoardData)
    requires !ShowsError(st.error) && !st.isLoading
    requires FindBoard(st.boards, st.board) == Some(d) && |d.rows| == 0
    ensures View(st, timespan) == DashboardView([Cards(d.panels, st.variables, timespan)])
  {
  }

  /**
   A catalog with an item that does not parse replaces the whole page by the error,
   while every item, the unparsed one included, is kept in the catalog.
   */
  lemma ParseFailureShowsErrorPage(st: PageState, items: seq<CatalogItem>, parse: string -> Option<BoardData>,
                                   k: nat, timespan: nat)
    requires k < |items| && ParseItem(items[k], parse).None?
    ensures var r := LoadCatalog(st, CatalogLoaded(items), parse);
      && |r.boards| == |items|
      && None in r.boards
      && View(r, timespan).ErrorView?
      && View(r, timespan).error.ParseFailed?
  {
    var r := LoadCatalog(st, CatalogLoaded(items), parse);
    var parsed := ParseItems(items, parse);
    assert parsed[k] == None;
    assert None in multiset(parsed);
    assert None in multiset(r.boards);
  }

  /**
   Three items where the middle one does not parse: three catalog entries, the middle
   item named in the error, and the error page shown.
   */
  lemma MiddleParseFailure(st: PageState, x: CatalogItem, y: CatalogItem, z: CatalogItem,
                           parse: string -> Option<BoardData>, timespan: nat)
    requires ParseItem(x, parse).Some? && ParseItem(y, parse).None? && ParseItem(z, parse).Some?
    ensures var r := LoadCatalog(st, CatalogLoaded([x, y, z]), parse);
      && |r.boards| == 3
      && r.error == Some(ParseFailed(y.name))
      && View(r, timespan) == ErrorView(ParseFailed(y.name))
  {
    var items := [x, y, z];
    assert items[1..] == [y, z] && items[1..][1..] == [z] && items[1..][1..][1..] == [];
    assert LastParseFailure([z], parse) == None;
    assert LastParseFailure([y, z], parse) == Some(y.name);
  }
}

=== FILE: decimal.dfy ===
/**
 Decimal text for whole numbers: the `${n}` formatting used to build the `"<n>m"`
 interval, and the digit-string reading used for a panel's breakpoint percentage.
 */
module Decimal {
  import opened Wrappers

  predicate IsDigit(c: char) {
    '0' <= c <= '9'
  }

  predicate AllDigits(s: string) {
    forall i :: 0 <= i < |s| ==> IsDigit(s[i])
  }

  function DigitChar(d: nat): (c: char)
    requires d < 10
    ensures IsDigit(c) && c as int - '0' as int == d
  {
    ('0' as int + d) as char
  }

  function DigitValue(c: char): nat
    requires IsDigit(c)
  {
    c as int - '0' as int
  }

  /** The shortest decimal spelling of `n`. */
  function NatToString(n: nat): (r: string)
    ensures |r| > 0 && AllDigits(r)
    ensures n > 0 ==> r[0] != '0'
    decreases n
  {
    if n < 10 then [DigitChar(n)] else NatToString(n / 10) + [DigitChar(n % 10)]
  }

  /** The value of a string of decimal digits, most significant first. */
  function DigitsValue(s: string): nat
    requires AllDigits(s)
    decreases |s|
  {
    if |s| == 0 then 0 else DigitsValue(s[..|s| - 1]) * 10 + DigitValue(s[|s| - 1])
  }

  /** Reads a non-empty string of decimal digits; anything else is not a number. */
  function ParseNat(s: string): (r: Option<nat>)
    ensures r.Some? <==> |s| > 0 && AllDigits(s)
    ensures r.Some? ==> r.value == DigitsValue(s)
  {
    if |s| > 0 && AllDigits(s) then Some(DigitsValue(s)) else None
  }

  lemma {:induction false} DigitsOfNatToString(n: nat)
    ensures DigitsValue(NatToString(n)) == n
    decreases n
  {
    if n >= 10 {
      DigitsOfNatToString(n / 10);
      var r := NatToString(n);
      assert r[..|r| - 1] == NatToString(n / 10);
    }
  }

  /** Reading back the decimal spelling of a number gives the number. */
  lemma ParseNatToString(n: nat)
    ensures ParseNat(NatToString(n)) == Some(n)
  {
    DigitsOfNatToString(n);
  }
}

=== FILE: ordered_map.dfy ===
/**
 A JavaScript object with string keys, as the dashboard uses it for its variable
 store: a sequence of (key, value) entries in insertion order. Assigning to a key
 that is already present updates its value where it stands; a new key goes last.
 */
module OrderedMap {
  import opened Wrappers

  type Entries<V> = seq<(string, V)>

  function Keys<V>(es: Entries<V>): set<string> {
    set i | 0 <= i < |es| :: es[i].0
  }

  predicate UniqueKeys<V>(es: Entries<V>) {
    forall i, j :: 0 <= i < j < |es| ==> es[i].0 != es[j].0
  }

  lemma KeysCons<V>(e: (string, V), es: Entries<V>)
    ensures Keys([e] + es) == {e.0} + Keys(es)
  {
    var c := [e] + es;
    forall x | x in Keys(c)
      ensures x in {e.0} + Keys(es)
    {
      var i :| 0 <= i < |c| && c[i].0 == x;
      if i > 0 {
        assert es[i - 1].0 == x;
      }
    }
    forall x | x in Keys(es)
      ensures x in Keys(c)
    {
      var i :| 0 <= i < |es| && es[i].0 == x;
      assert c[i + 1].0 == x;
    }
    assert c[0].0 == e.0;
  }

  /** The value stored under `k` (the first entry with that key), if any. */
  function Get<V>(es: Entries<V>, k: string): (r: Option<V>)
    ensures r.Some? <==> k in Keys(es)
    decreases |es|
  {
    if |es| == 0 then None
    else if es[0].0 == k then Some(es[0].1)
    else
      KeysCons(es[0], es[1..]);
      assert es == [es[0]] + es[1..];
      Get(es[1..], k)
  }

  /** `Get` finds the value of the first entry under `k`. */
  lemma {:induction false} GetFindsFirstEntry<V>(es: Entries<V>, k: string)
    ensures Get(es, k).Some? ==> exists i :: FirstAt(es, k, i) && es[i].1 == Get(es, k).value
    decreases |es|
  {
    if |es| > 0 && es[0].0 != k && Get(es, k).Some? {
      GetFindsFirstEntry(es[1..], k);
      var i :| FirstAt(es[1..], k, i) && es[1..][i].1 == Get(es, k).value;
      forall j | 0 < j < i + 1
        ensures !KeyAt(es, k, j)
      {
        assert !KeyAt(es[1..], k, j - 1);
      }
      assert FirstAt(es, k, i + 1);
    } else if |es| > 0 && es[0].0 == k {
      assert FirstAt(es, k, 0);
    }
  }

  /** When keys are unique, `Get` returns the value of any entry under `k`. */
  lemma GetUniqueKey<V>(es: Entries<V>, k: string)
    requires UniqueKeys(es)
    ensures forall i :: 0 <= i < |es| && es[i].0 == k ==> Get(es, k) == Some(es[i].1)
  {
  }

  /** Position `i` holds an entry under `k`. */
  ghost predicate KeyAt<V>(es: Entries<V>, k: string, i: int) {
    0 <= i < |es| && es[i].0 == k
  }

  /** Position `i` holds the first entry under `k`. */
  ghost predicate FirstAt<V>(es: Entries<V>, k: string, i: int) {
    KeyAt(es, k, i) && forall j :: 0 <= j < i ==> !KeyAt(es, k, j)
  }

  /** `obj[k] = v`: `k` now maps to `v`, every other key as before. */
  function Put<V>(es: Entries<V>, k: string, v: V): (r: Entries<V>)
    ensures Get(r, k) == Some(v)
    ensures forall j :: j != k ==> Get(r, j) == Get(es, j)
    ensures Keys(r) == Keys(es) + {k}
    ensures |es| <= |r| <= |es| + 1
    decreases |es|
  {
    if |es| == 0 then [(k, v)]
    else if es[0].0 == k then
      KeysCons(es[0], es[1..]);
      KeysCons((k, v), es[1..]);
      assert es == [es[0]] + es[1..];
      [(k, v)] + es[1..]
    else
      var t := Put(es[1..], k, v);
      KeysCons(es[0], es[1..]);
      KeysCons(es[0], t);
      assert es == [es[0]] + es[1..];
      [es[0]] + t
  }

  /** An existing key is updated without growing the entries; a new key is appended. */
  lemma {:induction false} PutAppendsNewKey<V>(es: Entries<V>, k: string, v: V)
    ensures k in Keys(es) ==> |Put(es, k, v)| == |es|
    ensures k !in Keys(es) ==> Put(es, k, v) == es + [(k, v)]
    decreases |es|
  {
    if |es| > 0 && es[0].0 != k {
      PutAppendsNewKey(es[1..], k, v);
      KeysCons(es[0], es[1..]);
      assert es == [es[0]] + es[1..];
    } else if |es| > 0 {
      assert es[0].0 in Keys(es);
    }
  }

  /** Every entry keeps its key in its place, and entries under other keys their values. */
  lemma {:induction false} PutInPlace<V>(es: Entries<V>, k: string, v: V)
    ensures forall i :: 0 <= i < |es| ==> i < |Put(es, k, v)| && Put(es, k, v)[i].0 == es[i].0
    ensures forall i :: 0 <= i < |es| && es[i].0 != k ==> Put(es, k, v)[i] == es[i]
    decreases |es|
  {
    if |es| > 0 && es[0].0 != k {
      PutInPlace(es[1..], k, v);
      var t := Put(es[1..], k, v);
      assert Put(es, k, v) == [es[0]] + t;
      assert forall i :: 1 <= i < |es| ==> es[i] == es[1..][i - 1];
    }
  }

  /** The only entry `Put` can introduce is `(k, v)`. */
  lemma {:induction false} PutAddsOnlyEntry<V>(es: Entries<V>, k: string, v: V)
    ensures forall e :: e in Put(es, k, v) ==> e == (k, v) || e in es
    decreases |es|
  {
    if |es| > 0 && es[0].0 != k {
      PutAddsOnlyEntry(es[1..], k, v);
      var t := Put(es[1..], k, v);
      assert Put(es, k, v) == [es[0]] + t;
      assert forall x :: x in es[1..] ==> x in es;
    } else if |es| > 0 {
      assert forall x :: x in es[1..] ==> x in es;
    }
  }

  /** Assigning never duplicates a key. */
  lemma {:induction false} PutKeepsUniqueKeys<V>(es: Entries<V>, k: string, v: V)
    requires UniqueKeys(es)
    ensures UniqueKeys(Put(es, k, v))
    decreases |es|
  {
    if |es| > 0 && es[0].0 != k {
      PutKeepsUniqueKeys(es[1..], k, v);
      var t := Put(es[1..], k, v);
      assert Put(es, k, v) == [es[0]] + t;
      assert es[0].0 !in Keys(es[1..]);
      assert es[0].0 !in Keys(t);
      assert forall i :: 0 <= i < |t| ==> t[i].0 in Keys(t);
    }
  }

  /** The keys in entry order, which is the order a `for … in` loop visits them. */
  function KeySeq<V>(es: Entries<V>): seq<string> {
    seq(|es|, i requires 0 <= i < |es| => es[i].0)
  }

  /** Assigning leaves the key order alone, except that a new key goes last. */
  lemma PutKeySeq<V>(es: Entries<V>, k: string, v: V)
    ensures KeySeq(Put(es, k, v)) == if k in Keys(es) then KeySeq(es) else KeySeq(es) + [k]
  {
    PutInPlace(es, k, v);
    PutAppendsNewKey(es, k, v);
  }

  /** Two assignments under different keys keep every key in place and other entries as they were. */
  lemma PutTwiceInPlace<V>(es: Entries<V>, k1: string, k2: string, v: V)
    ensures forall i :: 0 <= i < |es| ==> i < |Put(Put(es, k1, v), k2, v)| && Put(Put(es, k1, v), k2, v)[i].0 == es[i].0
    ensures forall i :: 0 <= i < |es| && es[i].0 != k1 && es[i].0 != k2 ==> Put(Put(es, k1, v), k2, v)[i] == es[i]
  {
    PutInPlace(es, k1, v);
    PutInPlace(Put(es, k1, v), k2, v);
  }

  /** Two assignments of one value introduce no entry other than under that value. */
  lemma PutTwiceAddsOnly<V>(es: Entries<V>, k1: string, k2: string, v: V)
    ensures forall e :: e in Put(Put(es, k1, v), k2, v) ==> e in es || e.1 == v
  {
    PutAddsOnlyEntry(es, k1, v);
    PutAddsOnlyEntry(Put(es, k1, v), k2, v);
  }

  /** Two different keys that were both absent are appended in the order assigned. */
  lemma PutTwiceAppends<V>(es: Entries<V>, k1: string, k2: string, v: V)
    ensures k1 != k2 && k1 !in Keys(es) && k2 !in Keys(es) ==>
              Put(Put(es, k1, v), k2, v) == es + [(k1, v), (k2, v)]
  {
  }
}

=== FILE: panels.dfy ===
/**
 Panel layout and dispatch: the column span and width class of a panel, what a card's
 body shows, and how rows of panels flatten into the tiles the board displays.
 */
module Panels {
  import opened Wrappers
  import opened Strings
  import opened Decimal
  import opened Template

  datatype Target = Target(expr: Option<string>, legendFormat: Option<string>)

  /**
   One panel. `span` 0 stands for an absent span, and a missing `targets` or `panels`
   array for an empty one: the code treats each pair alike.
   */
  datatype Panel = Panel(
    kind: string,
    title: string,
    span: int,
    breakpoint: Option<string>,
    targets: seq<Target>,
    panels: seq<Panel>)

  datatype Row = Row(panels: seq<Panel>)

  const RowKind: string := "row"
  const PieChartKind: string := "grafana-piechart-panel"
  const GraphKind: string := "graph"
  const SingleStatKind: string := "singlestat"
  const TableKind: string := "table"

  /** The panel types that render a visual. */
  predicate IsSupportedKind(kind: string) {
    kind == PieChartKind || kind == GraphKind || kind == SingleStatKind || kind == TableKind
  }

  /** Columns in the dashboard grid; a panel with no width hint takes all of them. */
  const GridColumns: int := 12

  // ---------------------------------------------------------------------------
  // Width
  // ---------------------------------------------------------------------------

  /** `_.trimEnd(s, '%')`: the string without its trailing percent signs. */
  function TrimEndPercent(s: string): (r: string)
    ensures StartsWith(s, r)
    ensures forall k :: |r| <= k < |s| ==> s[k] == '%'
    ensures |r| == 0 || r[|r| - 1] != '%'
    decreases |s|
  {
    if |s| > 0 && s[|s| - 1] == '%' then
      var r := TrimEndPercent(s[..|s| - 1]);
      assert s[..|s| - 1][..|r|] == s[..|r|];
      r
    else s
  }

  /** `_.toInteger(_.trimEnd(breakpoint, '%'))` for a breakpoint written in digits. */
  function BreakpointPercent(breakpoint: Option<string>): (r: nat)
    ensures breakpoint.None? ==> r == 0
    ensures breakpoint.Some? && ParseNat(TrimEndPercent(breakpoint.value)).Some? ==>
              r == ParseNat(TrimEndPercent(breakpoint.value)).value
    ensures breakpoint.Some? && ParseNat(TrimEndPercent(breakpoint.value)).None? ==> r == 0
  {
    match breakpoint
    case None => 0
    case Some(s) => ParseNat(TrimEndPercent(s)).GetOr(0)
  }

  /**
   `Math.round(12 * (bp / 100))`. Twelve times a whole percentage is even and so never
   lands half-way between two whole columns: the rounding never ties, and rounding to
   nearest is the integer division `(12 * bp + 50) / 100`.
   */
  lemma RoundingNeverTies(bp: int)
    ensures (GridColumns * bp) % 100 != 50
  {
  }

  /** The whole number of columns nearest to `bp` percent of the grid. */
  function RoundedColumns(bp: int): (r: int)
    ensures -50 < 100 * r - GridColumns * bp < 50
  {
    var x := GridColumns * bp + 50;
    var r, m := x / 100, x % 100;
    assert x == 100 * r + m && 0 <= m < 100;
    assert m != 0;
    r
  }

  /**
   `getPanelSpan`: a non-zero span wins; else a positive breakpoint percentage gives
   the nearest whole number of columns to that share of the grid; else the full grid.
   */
  function PanelSpan(p: Panel): (r: int)
    ensures p.span != 0 ==> r == p.span
    ensures p.span == 0 && BreakpointPercent(p.breakpoint) > 0 ==>
              -50 < 100 * r - GridColumns * BreakpointPercent(p.breakpoint) < 50
    ensures p.span == 0 && BreakpointPercent(p.breakpoint) == 0 ==> r == GridColumns
  {
    if p.span != 0 then p.span
    else
      var bp := BreakpointPercent(p.breakpoint);
      if bp > 0 then RoundedColumns(bp) else GridColumns
  }

  /** The density class for a span: a fixed table, with every other span at `max-1`. */
  function ClassModifier(span: int): (c: string)
    ensures c == "max-2" <==> span == 6
    ensures c == "max-3" <==> span == 2 || span == 4 || span == 5
    ensures c == "max-4" <==> span == 3
    ensures c == "max-1" <==> span !in {2, 3, 4, 5, 6}
  {
    if span == 6 then "max-2"
    else if span == 2 || span == 4 || span == 5 then "max-3"
    else if span == 3 then "max-4"
    else "max-1"
  }

  /**
   `getPanelClassModifier`: the class of the panel's span. For a panel without a span
   whose breakpoint is positive, 46-54% is `max-2`; 13-20% and 30-45% are `max-3`;
   21-29% is `max-4`; the rest `max-1`.
   */
  function PanelClassModifier(p: Panel): (c: string)
    ensures c == ClassModifier(PanelSpan(p))
    ensures p.span == 0 && BreakpointPercent(p.breakpoint) > 0 ==>
      var bp := BreakpointPercent(p.breakpoint);
      && (c == "max-2" <==> 46 <= bp <= 54)
      && (c == "max-3" <==> 13 <= bp <= 20 || 30 <= bp <= 45)
      && (c == "max-4" <==> 21 <= bp <= 29)
      && (c == "max-1" <==> bp <= 12 || bp >= 55)
  {
    ClassModifier(PanelSpan(p))
  }

  /** A panel with neither span nor breakpoint spans the grid and gets `max-1`. */
  lemma DefaultPanelIsFullWidth(p: Panel)
    requires p.span == 0 && p.breakpoint.None?
    ensures PanelSpan(p) == GridColumns && PanelClassModifier(p) == "max-1"
  {
  }

  // ---------------------------------------------------------------------------
  // Card body
  // ---------------------------------------------------------------------------

  /** The visual a supported panel shows, with the queries it is given. */
  datatype Visual =
    | BarChart(query: string)
    | Graph(queries: seq<string>)
    | SingleStat(query: string)
    | Table(queries: seq<string>)

  datatype Body = EmptyBody | LoadingBody | VisualBody(visual: Visual)

  /** Each target's `expr`, evaluated. */
  function EvaluatedQueries(p: Panel, vars: Variables, timespan: nat): (qs: seq<Option<string>>)
    ensures |qs| == |p.targets|
    ensures forall i :: 0 <= i < |qs| ==> qs[i] == EvaluateTemplate(p.targets[i].expr, vars, timespan)
  {
    seq(|p.targets|, i requires 0 <= i < |p.targets| => EvaluateTemplate(p.targets[i].expr, vars, timespan))
  }

  predicate AllResolved(qs: seq<Option<string>>) {
    forall i :: 0 <= i < |qs| ==> qs[i].Some?
  }

  /** The texts of resolved queries, in order. */
  function Resolved(qs: seq<Option<string>>): (vs: seq<string>)
    requires AllResolved(qs)
    ensures |vs| == |qs|
    ensures forall i :: 0 <= i < |qs| ==> qs[i] == Some(vs[i])
  {
    seq(|qs|, i requires 0 <= i < |qs| => qs[i].value)
  }

  /**
   `CardBody`: nothing without targets; a loading placeholder while any query is
   unresolved; otherwise the visual for the panel's type, fed the queries in order.
   */
  function CardBody(p: Panel, vars: Variables, timespan: nat): (r: Body)
    ensures |p.targets| == 0 ==> r == EmptyBody
    ensures |p.targets| > 0 ==> (r == LoadingBody <==> !AllResolved(EvaluatedQueries(p, vars, timespan)))
    ensures r.VisualBody? ==> IsSupportedKind(p.kind) && AllResolved(EvaluatedQueries(p, vars, timespan))
    ensures |p.targets| > 0 && AllResolved(EvaluatedQueries(p, vars, timespan)) ==>
              (r.VisualBody? <==> IsSupportedKind(p.kind))
    ensures r.VisualBody? ==>
              var qs := Resolved(EvaluatedQueries(p, vars, timespan));
              match r.visual
              case BarChart(q) => p.kind == PieChartKind && q == qs[0]
              case Graph(q) => p.kind == GraphKind && q == qs
              case SingleStat(q) => p.kind == SingleStatKind && q == qs[0]
              case Table(q) => p.kind == TableKind && q == qs
  {
    var qs := EvaluatedQueries(p, vars, timespan);
    if |qs| == 0 then EmptyBody
    else if !AllResolved(qs) then LoadingBody
    else
      var values := Resolved(qs);
      if p.kind == PieChartKind then VisualBody(BarChart(values[0]))
      else if p.kind == GraphKind then VisualBody(Graph(values))
      else if p.kind == SingleStatKind then VisualBody(SingleStat(values[0]))
      else if p.kind == TableKind then VisualBody(Table(values))
      else EmptyBody
  }

  /** A target with an empty or missing `expr` keeps the card loading. */
  lemma EmptyExpressionKeepsLoading(p: Panel, vars: Variables, timespan: nat, i: nat)
    requires i < |p.targets| && (p.targets[i].expr.None? || p.targets[i].expr == Some(""))
    ensures CardBody(p, vars, timespan) == LoadingBody
  {
    assert EvaluatedQueries(p, vars, timespan)[i].None?;
  }

  // ---------------------------------------------------------------------------
  // Cards and rows
  // ---------------------------------------------------------------------------

  datatype Tile = Tile(title: string, classModifier: string, body: Body)

  function TileOf(p: Panel, vars: Variables, timespan: nat): Tile {
    Tile(p.title, PanelClassModifier(p), CardBody(p, vars, timespan))
  }

  /** The panels a tree stands for once rows are opened, in reading order. */
  function Flatten(p: Panel): seq<Panel>
    decreases p
  {
    if p.kind == RowKind then FlattenAll(p.panels) else [p]
  }

  function FlattenAll(ps: seq<Panel>): seq<Panel>
    decreases ps
  {
    if |ps| == 0 then [] else Flatten(ps[0]) + FlattenAll(ps[1..])
  }

  /** The supported panels among `ps`, in order. */
  function Supported(ps: seq<Panel>): (r: seq<Panel>)
    ensures forall q :: q in r ==> q in ps && IsSupportedKind(q.kind)
    ensures forall q :: q in ps && IsSupportedKind(q.kind) ==> q in r
  {
    if |ps| == 0 then []
    else if IsSupportedKind(ps[0].kind) then [ps[0]] + Supported(ps[1..])
    else Supported(ps[1..])
  }

  function Tiles(ps: seq<Panel>, vars: Variables, timespan: nat): (r: seq<Tile>)
    ensures |r| == |ps|
    ensures forall i :: 0 <= i < |ps| ==> r[i] == TileOf(ps[i], vars, timespan)
  {
    seq(|ps|, i requires 0 <= i < |ps| => TileOf(ps[i], vars, timespan))
  }

  lemma SupportedAppend(a: seq<Panel>, b: seq<Panel>)
    ensures Supported(a + b) == Supported(a) + Supported(b)
  {
    if |a| > 0 {
      SupportedAppend(a[1..], b);
      assert (a + b)[1..] == a[1..] + b;
    } else {
      assert a + b == b;
    }
  }

  lemma TilesAppend(a: seq<Panel>, b: seq<Panel>, vars: Variables, timespan: nat)
    ensures Tiles(a + b, vars, timespan) == Tiles(a, vars, timespan) + Tiles(b, vars, timespan)
  {
  }

  /**
   `Card`: a row renders its children's cards in order; a supported panel renders one
   tile; any other type renders nothing. So a panel renders one tile for each supported
   panel of its opened tree, in reading order.
   */
  function Card(p: Panel, vars: Variables, timespan: nat): (r: seq<Tile>)
    ensures r == Tiles(Supported(Flatten(p)), vars, timespan)
    decreases p
  {
    if p.kind == RowKind then Cards(p.panels, vars, timespan)
    else if !IsSupportedKind(p.kind) then []
    else [TileOf(p, vars, timespan)]
  }

  /** The cards of a list of panels: the tiles of the supported panels of their opened trees. */
  function Cards(ps: seq<Panel>, vars: Variables, timespan: nat): (r: seq<Tile>)
    ensures r == Tiles(Supported(FlattenAll(ps)), vars, timespan)
    decreases ps
  {
    if |ps| == 0 then []
    else
      SupportedAppend(Flatten(ps[0]), FlattenAll(ps[1..]));
      TilesAppend(Supported(Flatten(ps[0])), Supported(FlattenAll(ps[1..])), vars, timespan);
      Card(ps[0], vars, timespan) + Cards(ps[1..], vars, timespan)
  }

  /**
   A row of two supported panels around one of an unsupported type renders exactly two
   tiles, the first and the third child's, in that order.
   */
  lemma RowSkipsUnsupportedChild(row: Panel, x: Panel, y: Panel, z: Panel, vars: Variables, timespan: nat)
    requires row.kind == RowKind && row.panels == [x, y, z]
    requires IsSupportedKind(x.kind) && IsSupportedKind(z.kind)
    requires y.kind != RowKind && !IsSupportedKind(y.kind)
    ensures Card(row, vars, timespan) == [TileOf(x, vars, timespan), TileOf(z, vars, timespan)]
  {
    assert Flatten(x) == [x] && Flatten(y) == [y] && Flatten(z) == [z] by {
      assert x.kind != RowKind && z.kind != RowKind;
    }
    assert FlattenAll([z]) == [z] by { assert [z][1..] == []; }
    assert FlattenAll([y, z]) == [y, z] by { assert [y, z][1..] == [z]; }
    assert Flatten(row) == [x, y, z] by { assert [x, y, z][1..] == [y, z]; }
    assert Supported([z]) == [z] by { assert [z][1..] == []; }
    assert Supported([y, z]) == [z] by { assert [y, z][1..] == [z]; }
    assert Supported([x, y, z]) == [x, z] by { assert [x, y, z][1..] == [y, z]; }
  }

  /** The board: one line of tiles per row. */
  function RenderRows(rows: seq<Row>, vars: Variables, timespan: nat): (r: seq<seq<Tile>>)
    ensures |r| == |rows|
    ensures forall i :: 0 <= i < |rows| ==> r[i] == Cards(rows[i].panels, vars, timespan)
  {
    seq(|rows|, i requires 0 <= i < |rows| => Cards(rows[i].panels, vars, timespan))
  }
}

=== FILE: sorting.dfy ===
/**
 The stable sort behind `_.sortBy(xs, key)` and, with the identity key, the default
 `Array.prototype.sort` on strings: an insertion sort over sequences, proved to
 return a sorted permutation that keeps equal-key elements in their input order.
 */
module Sorting {
  import opened Strings

  ghost predicate SortedBy<T>(s: seq<T>, key: T -> string) {
    forall i, j :: 0 <= i < j < |s| ==> LexLe(key(s[i]), key(s[j]))
  }

  /** Puts `x` in front of the first element whose key is not below `x`'s. */
  function InsertBy<T>(x: T, s: seq<T>, key: T -> string): (r: seq<T>)
    ensures |r| == |s| + 1
    decreases |s|
  {
    if |s| == 0 then [x]
    else if LexLe(key(x), key(s[0])) then [x] + s
    else [s[0]] + InsertBy(x, s[1..], key)
  }

  lemma {:induction false} InsertByPermutes<T>(x: T, s: seq<T>, key: T -> string)
    ensures multiset(InsertBy(x, s, key)) == multiset(s) + multiset{x}
    decreases |s|
  {
    if |s| > 0 && !LexLe(key(x), key(s[0])) {
      InsertByPermutes(x, s[1..], key);
      assert s == [s[0]] + s[1..];
    }
  }

  lemma {:induction false} InsertBySorted<T>(x: T, s: seq<T>, key: T -> string)
    requires SortedBy(s, key)
    ensures SortedBy(InsertBy(x, s, key), key)
    decreases |s|
  {
    if |s| == 0 {
    } else if LexLe(key(x), key(s[0])) {
      var r := [x] + s;
      forall i, j | 0 <= i < j < |r|
        ensures LexLe(key(r[i]), key(r[j]))
      {
        if i == 0 && j > 1 {
          LexLeTransitive(key(x), key(s[0]), key(s[j - 1]));
        }
      }
    } else {
      InsertBySorted(x, s[1..], key);
      InsertByPermutes(x, s[1..], key);
      LexLeTotal(key(x), key(s[0]));
      var t := InsertBy(x, s[1..], key);
      var r := [s[0]] + t;
      forall i, j | 0 <= i < j < |r|
        ensures LexLe(key(r[i]), key(r[j]))
      {
        if i == 0 {
          var y := r[j];
          assert y in multiset(t);
          assert y == x || y in multiset(s[1..]);
          if y != x {
            var k :| 0 <= k < |s[1..]| && s[1..][k] == y;
            assert s[k + 1] == y;
          }
        }
      }
    }
  }

  /** A stable sort of `s` by `key`. */
  function SortBy<T>(s: seq<T>, key: T -> string): (r: seq<T>)
    ensures |r| == |s|
    ensures multiset(r) == multiset(s)
    ensures SortedBy(r, key)
    decreases |s|
  {
    if |s| == 0 then []
    else
      var t := SortBy(s[1..], key);
      InsertByPermutes(s[0], t, key);
      InsertBySorted(s[0], t, key);
      assert s == [s[0]] + s[1..];
      InsertBy(s[0], t, key)
  }

  /** The elements of `s` whose key is `k`, in their order in `s`. */
  function WithKey<T>(s: seq<T>, key: T -> string, k: string): seq<T>
    decreases |s|
  {
    if |s| == 0 then []
    else if key(s[0]) == k then [s[0]] + WithKey(s[1..], key, k)
    else WithKey(s[1..], key, k)
  }

  lemma {:induction false} WithKeyOfInsert<T>(x: T, s: seq<T>, key: T -> string, k: string)
    requires SortedBy(s, key)
    ensures WithKey(InsertBy(x, s, key), key, k)
         == if key(x) == k then [x] + WithKey(s, key, k) else WithKey(s, key, k)
    decreases |s|
  {
    if |s| == 0 {
    } else if LexLe(key(x), key(s[0])) {
      assert ([x] + s)[1..] == s;
    } else {
      WithKeyOfInsert(x, s[1..], key, k);
      LexLeTotal(key(x), key(s[0]));
      if key(s[0]) == k && key(x) == k {
        LexLeReflexive(k);
        assert false;
      }
      assert ([s[0]] + InsertBy(x, s[1..], key))[1..] == InsertBy(x, s[1..], key);
    }
  }

  /** Stability: elements that share a key leave the sort in the order they entered it. */
  lemma {:induction false} SortByStable<T>(s: seq<T>, key: T -> string, k: string)
    ensures WithKey(SortBy(s, key), key, k) == WithKey(s, key, k)
    decreases |s|
  {
    if |s| > 0 {
      SortByStable(s[1..], key, k);
      WithKeyOfInsert(s[0], SortBy(s[1..], key), key, k);
    }
  }

  function Identity(s: string): string {
    s
  }

  /** `Array.prototype.sort()` on strings. */
  function SortStrings(s: seq<string>): (r: seq<string>)
    ensures |r| == |s| && multiset(r) == multiset(s) && SortedBy(r, Identity)
  {
    SortBy(s, Identity)
  }

  /** The first element of a sorted sequence is at or below every element of it. */
  lemma HeadIsLeast(a: seq<string>, x: string)
    requires SortedBy(a, Identity) && x in multiset(a)
    ensures LexLe(a[0], x)
  {
    var i :| 0 <= i < |a| && a[i] == x;
    if i > 0 {
      assert LexLe(Identity(a[0]), Identity(a[i]));
    } else {
      LexLeReflexive(x);
    }
  }

  lemma TailSorted(a: seq<string>)
    requires |a| > 0 && SortedBy(a, Identity)
    ensures SortedBy(a[1..], Identity)
  {
    forall i, j | 0 <= i < j < |a[1..]|
      ensures LexLe(Identity(a[1..][i]), Identity(a[1..][j]))
    {
      assert Identity(a[1..][i]) == Identity(a[i + 1]);
      assert Identity(a[1..][j]) == Identity(a[j + 1]);
    }
  }

  /**
   Two sorted arrangements of the same strings are the same sequence, so the result
   of sorting does not depend on the algorithm used.
   */
  lemma {:induction false} SortedPermutationUnique(a: seq<string>, b: seq<string>)
    requires SortedBy(a, Identity) && SortedBy(b, Identity)
    requires multiset(a) == multiset(b)
    ensures a == b
    decreases |a|
  {
    assert |b| == |multiset(b)| == |multiset(a)| == |a|;
    if |a| > 0 {
      assert a[0] == b[0] by {
        assert a[0] in multiset(a) && b[0] in multiset(b);
        HeadIsLeast(b, a[0]);
        HeadIsLeast(a, b[0]);
        LexLeAntisymmetric(a[0], b[0]);
      }
      assert multiset(a[1..]) == multiset(b[1..]) by {
        assert a == [a[0]] + a[1..] && b == [b[0]] + b[1..];
        assert multiset(a[1..]) == multiset(a) - multiset{a[0]};
        assert multiset(b[1..]) == multiset(b) - multiset{b[0]};
      }
      TailSorted(a);
      TailSorted(b);
      SortedPermutationUnique(a[1..], b[1..]);
      assert a == [a[0]] + a[1..] && b == [b[0]] + b[1..];
    }
  }
}

=== FILE: strings.dfy ===
/**
 Plain string operations the dashboard relies on: prefix tests, substring search,
 JavaScript's global `String.replace` with a literal pattern, splitting and joining,
 character-by-character ordering (standing in for the UTF-16 code-unit ordering of
 `Array.prototype.sort` and `_.sortBy`), and lower-casing.
 */
module Strings {

  predicate StartsWith(s: string, p: string) {
    |p| <= |s| && s[..|p|] == p
  }

  /** An occurrence of `p` in `s` at index `i`. */
  ghost predicate OccursAt(s: string, p: string, i: int) {
    0 <= i && i + |p| <= |s| && s[i..i + |p|] == p
  }

  /**
   An occurrence in a non-empty string is one at its start or one in its tail, shifted
   by one.
   */
  lemma OccursShift(s: string, p: string)
    requires |s| > 0
    ensures (exists i :: OccursAt(s, p, i)) <==> StartsWith(s, p) || exists i :: OccursAt(s[1..], p, i)
  {
    if exists i :: OccursAt(s[1..], p, i) {
      var i :| OccursAt(s[1..], p, i);
      assert s[i + 1..i + 1 + |p|] == s[1..][i..i + |p|];
      assert OccursAt(s, p, i + 1);
    }
    if StartsWith(s, p) {
      assert OccursAt(s, p, 0);
    }
    forall i | OccursAt(s, p, i) && i > 0
      ensures OccursAt(s[1..], p, i - 1)
    {
      assert s[1..][i - 1..i - 1 + |p|] == s[i..i + |p|];
    }
  }

  /**
   True when `p` occurs as a contiguous block somewhere in `s`: the test
   `result.match(re)` makes for a pattern without metacharacters.
   */
  predicate Contains(s: string, p: string)
    ensures Contains(s, p) <==> exists i :: OccursAt(s, p, i)
    decreases |s|
  {
    if |s| == 0 then
      assert |p| == 0 ==> OccursAt(s, p, 0);
      StartsWith(s, p)
    else
      OccursShift(s, p);
      StartsWith(s, p) || Contains(s[1..], p)
  }

  /** A pattern that starts with a character absent from `s` cannot occur in `s`. */
  lemma {:induction false} AbsentFirstCharNotContained(s: string, p: string)
    requires |p| > 0 && p[0] !in s
    ensures !Contains(s, p)
    decreases |s|
  {
    if |s| > 0 {
      assert s[0] in s;
      assert forall c :: c in s[1..] ==> c in s;
      AbsentFirstCharNotContained(s[1..], p);
    }
  }

  /**
   Every non-overlapping occurrence of `p`, found left to right, replaced by `v`:
   `s.replace(new RegExp(p, 'g'), v)` for a pattern without metacharacters and a
   replacement without `$` sequences.
   */
  function ReplaceAll(s: string, p: string, v: string): (r: string)
    requires |p| > 0
    ensures !Contains(s, p) ==> r == s
    ensures v == p ==> r == s
    decreases |s|
  {
    if |s| == 0 then ""
    else if StartsWith(s, p) then
      assert s == s[..|p|] + s[|p|..];
      v + ReplaceAll(s[|p|..], p, v)
    else
      assert s == [s[0]] + s[1..];
      [s[0]] + ReplaceAll(s[1..], p, v)
  }

  /** The pieces of `s` between the non-overlapping occurrences of `p`, found left to right. */
  function Split(s: string, p: string): (parts: seq<string>)
    requires |p| > 0
    ensures |parts| > 0
    decreases |s|
  {
    if |s| == 0 then [""]
    else if StartsWith(s, p) then [""] + Split(s[|p|..], p)
    else
      var rest := Split(s[1..], p);
      [[s[0]] + rest[0]] + rest[1..]
  }

  /** The parts with `sep` between each neighbouring pair. */
  function Join(parts: seq<string>, sep: string): string
    decreases |parts|
  {
    if |parts| == 0 then ""
    else if |parts| == 1 then parts[0]
    else parts[0] + sep + Join(parts[1..], sep)
  }

  lemma {:induction false} JoinExtendsHead(c: char, parts: seq<string>, sep: string)
    requires |parts| > 0
    ensures Join([[c] + parts[0]] + parts[1..], sep) == [c] + Join(parts, sep)
  {
    var q := [[c] + parts[0]] + parts[1..];
    assert q[1..] == parts[1..];
  }

  /** Replacing every occurrence of `p` by `v` is joining the pieces between them with `v`. */
  lemma {:induction false} ReplaceAllIsJoinOfSplit(s: string, p: string, v: string)
    requires |p| > 0
    ensures ReplaceAll(s, p, v) == Join(Split(s, p), v)
    decreases |s|
  {
    if |s| == 0 {
    } else if StartsWith(s, p) {
      ReplaceAllIsJoinOfSplit(s[|p|..], p, v);
      var rest := Split(s[|p|..], p);
      assert ([""] + rest)[1..] == rest;
    } else {
      ReplaceAllIsJoinOfSplit(s[1..], p, v);
      JoinExtendsHead(s[0], Split(s[1..], p), v);
    }
  }

  /** Joining the pieces back with the pattern restores the original string. */
  lemma SplitJoinRoundTrip(s: string, p: string)
    requires |p| > 0
    ensures Join(Split(s, p), p) == s
  {
    ReplaceAllIsJoinOfSplit(s, p, p);
  }

  /** The first piece of a split is a prefix of the string that was split. */
  lemma {:induction false} SplitHeadIsPrefix(s: string, p: string)
    requires |p| > 0
    ensures StartsWith(s, Split(s, p)[0])
    decreases |s|
  {
    if |s| > 0 && !StartsWith(s, p) {
      SplitHeadIsPrefix(s[1..], p);
      var h := Split(s[1..], p)[0];
      assert ([s[0]] + h) == s[..|h| + 1];
    }
  }

  lemma PrefixOfPrefix(s: string, x: string, p: string)
    requires StartsWith(s, x) && StartsWith(x, p)
    ensures StartsWith(s, p)
  {
    assert s[..|p|] == x[..|p|];
  }

  /** No piece of a split contains the pattern: every occurrence was cut out. */
  lemma {:induction false} SplitPiecesAvoidPattern(s: string, p: string)
    requires |p| > 0
    ensures forall i :: 0 <= i < |Split(s, p)| ==> !Contains(Split(s, p)[i], p)
    decreases |s|
  {
    if |s| == 0 {
      assert !StartsWith("", p);
    } else if StartsWith(s, p) {
      SplitPiecesAvoidPattern(s[|p|..], p);
      assert !StartsWith("", p);
    } else {
      SplitPiecesAvoidPattern(s[1..], p);
      var rest := Split(s[1..], p);
      var head := [s[0]] + rest[0];
      SplitHeadIsPrefix(s[1..], p);
      assert StartsWith(s, head) by {
        assert s[..|head|] == [s[0]] + s[1..][..|rest[0]|];
      }
      if StartsWith(head, p) {
        PrefixOfPrefix(s, head, p);
      }
      assert head[1..] == rest[0];
      assert !Contains(head, p);
    }
  }

  /** A string made only of the pattern becomes exactly the replacement. */
  lemma ReplaceAllWhole(p: string, v: string)
    requires |p| > 0
    ensures ReplaceAll(p, p, v) == v
  {
    assert StartsWith(p, p);
    assert p[|p|..] == "";
  }

  /** Character-by-character (code point) order on strings, a prefix first. */
  predicate LexLe(a: string, b: string)
    decreases |a|
  {
    |a| == 0 || (|b| > 0 && (a[0] < b[0] || (a[0] == b[0] && LexLe(a[1..], b[1..]))))
  }

  lemma {:induction false} LexLeReflexive(a: string)
    ensures LexLe(a, a)
    decreases |a|
  {
    if |a| > 0 {
      LexLeReflexive(a[1..]);
    }
  }

  lemma {:induction false} LexLeTotal(a: string, b: string)
    ensures LexLe(a, b) || LexLe(b, a)
    decreases |a|
  {
    if |a| > 0 && |b| > 0 && a[0] == b[0] {
      LexLeTotal(a[1..], b[1..]);
    }
  }

  lemma {:induction false} LexLeAntisymmetric(a: string, b: string)
    requires LexLe(a, b) && LexLe(b, a)
    ensures a == b
    decreases |a|
  {
    if |a| > 0 {
      LexLeAntisymmetric(a[1..], b[1..]);
      assert a == [a[0]] + a[1..] && b == [b[0]] + b[1..];
    }
  }

  lemma {:induction false} LexLeTransitive(a: string, b: string, c: string)
    requires LexLe(a, b) && LexLe(b, c)
    ensures LexLe(a, c)
    decreases |a|
  {
    if |a| > 0 && a[0] == b[0] && b[0] == c[0] {
      LexLeTransitive(a[1..], b[1..], c[1..]);
    }
  }

  function ToLowerChar(c: char): char {
    if 'A' <= c <= 'Z' then (c as int + 32) as char else c
  }

  /** `String.prototype.toLowerCase` on the ASCII letters; every other character is kept. */
  function ToLower(s: string): (r: string)
    ensures |r| == |s|
    ensures forall i :: 0 <= i < |s| ==> r[i] == ToLowerChar(s[i])
    ensures forall i :: 0 <= i < |r| ==> !('A' <= r[i] <= 'Z')
  {
    seq(|s|, i requires 0 <= i < |s| => ToLowerChar(s[i]))
  }
}

=== FILE: template.dfy ===
/**
 The query-template evaluator (`evaluateTemplate`): substitutes `$name` references to
 dashboard variables, and the two synthetic interval variables, into a query string.

 Variables are visited in store order followed by `__interval` and `__rate_interval`.
 For each one whose pattern `$name` occurs in the string built so far, evaluation stops
 with no result when that variable is still loading, and otherwise every occurrence is
 replaced by the variable's value. The pattern has no word boundary, so `$inst` also
 rewrites the front of `$instance`, and the outcome depends on the visiting order.
 */
module Template {
  import opened Wrappers
  import opened Strings
  import opened Decimal
  import opened OrderedMap

  /** One dashboard variable as the store holds it; absent flags read as false. */
  datatype Variable = Variable(
    value: Option<string>,
    options: seq<string>,
    query: Option<string>,
    isHidden: bool,
    isLoading: bool)

  /** The variable store: variable name to variable, in insertion order. */
  type Variables = Entries<Variable>

  /** Number of points requested per time series. */
  const NumSamples: nat := 30
  /** Lower bound of the synthetic interval, so that rate calculations get two points. */
  const MinIntervalMinutes: nat := 5
  const MillisPerMinute: nat := 60000

  const IntervalName: string := "__interval"
  const RateIntervalName: string := "__rate_interval"

  /**
   The synthetic interval in minutes for a time span in milliseconds: the whole minutes
   in one of the `NumSamples` slices of the span, but never fewer than five.
   */
  function IntervalMinutes(timespan: nat): (m: nat)
    ensures m >= MinIntervalMinutes
    ensures
      || (m == MinIntervalMinutes && timespan < (MinIntervalMinutes + 1) * NumSamples * MillisPerMinute)
      || (m > MinIntervalMinutes
          && m * NumSamples * MillisPerMinute <= timespan < (m + 1) * NumSamples * MillisPerMinute)
  {
    var minutes := timespan / NumSamples / MillisPerMinute;
    if minutes > MinIntervalMinutes then minutes else MinIntervalMinutes
  }

  /** The text `"<n>m"` both interval variables stand for. */
  function IntervalText(timespan: nat): (r: string)
    ensures |r| >= 2 && r[|r| - 1] == 'm'
    ensures ParseNat(r[..|r| - 1]) == Some(IntervalMinutes(timespan))
    ensures '$' !in r
  {
    var digits := NatToString(IntervalMinutes(timespan));
    assert forall i :: 0 <= i < |digits| ==> digits[i] != '$';
    ParseNatToString(IntervalMinutes(timespan));
    assert (digits + "m")[..|digits|] == digits;
    digits + "m"
  }

  function IntervalVariable(timespan: nat): Variable {
    Variable(Some(IntervalText(timespan)), [], None, false, false)
  }

  /** `{ ...variables, __interval: interval, __rate_interval: interval }`. */
  function WithIntervals(vars: Variables, timespan: nat): (es: Variables)
    ensures |es| >= |vars|
    ensures forall i :: 0 <= i < |vars| ==> es[i].0 == vars[i].0
    ensures forall i :: 0 <= i < |vars| && vars[i].0 != IntervalName && vars[i].0 != RateIntervalName
              ==> es[i] == vars[i]
    ensures forall i :: 0 <= i < |es| ==> es[i] in vars || es[i].1 == IntervalVariable(timespan)
    ensures Get(es, IntervalName) == Some(IntervalVariable(timespan))
    ensures Get(es, RateIntervalName) == Some(IntervalVariable(timespan))
    ensures forall k :: k != IntervalName && k != RateIntervalName ==> Get(es, k) == Get(vars, k)
    ensures IntervalName !in Keys(vars) && RateIntervalName !in Keys(vars) ==>
              es == vars + [(IntervalName, IntervalVariable(timespan)), (RateIntervalName, IntervalVariable(timespan))]
  {
    var iv := IntervalVariable(timespan);
    var es := Put(Put(vars, IntervalName, iv), RateIntervalName, iv);
    PutTwiceInPlace(vars, IntervalName, RateIntervalName, iv);
    PutTwiceAddsOnly(vars, IntervalName, RateIntervalName, iv);
    PutTwiceAppends(vars, IntervalName, RateIntervalName, iv);
    forall i | 0 <= i < |es|
      ensures es[i] in vars || es[i].1 == iv
    {
      assert es[i] in es;
    }
    es
  }

  /** The search pattern for a variable: `$` followed by its name. */
  function Pattern(name: string): (p: string)
    ensures |p| > 0 && p[0] == '$'
  {
    "$" + name
  }

  /** What a variable substitutes: its value, or nothing when that is absent. */
  function ValueText(v: Variable): string {
    v.value.GetOr("")
  }

  /** The replace step for one entry, ignoring whether it is loading. */
  function Pass(cur: string, e: (string, Variable)): string {
    ReplaceAll(cur, Pattern(e.0), ValueText(e.1))
  }

  /** Every entry's replace step in order, as if no variable were loading. */
  function RunPasses(cur: string, es: Variables): string
    decreases |es|
  {
    if |es| == 0 then cur else RunPasses(Pass(cur, es[0]), es[1..])
  }

  /** Entry `i` is loading and its pattern occurs in the text the earlier steps produced. */
  ghost predicate BlocksAt(cur: string, es: Variables, i: int) {
    0 <= i < |es| && es[i].1.isLoading && Contains(RunPasses(cur, es[..i]), Pattern(es[i].0))
  }

  /** The loop of `evaluateTemplate`, from the string `cur` over the entries `es`. */
  function Substitute(cur: string, es: Variables): (r: Option<string>)
    ensures '$' !in cur ==> r == Some(cur)
    ensures (forall i :: 0 <= i < |es| ==> !es[i].1.isLoading) ==> r.Some?
    decreases |es|
  {
    if |es| == 0 then Some(cur)
    else
      var p := Pattern(es[0].0);
      assert '$' !in cur ==> !Contains(cur, p) by {
        if '$' !in cur {
          AbsentFirstCharNotContained(cur, p);
        }
      }
      if !Contains(cur, p) then Substitute(cur, es[1..])
      else if es[0].1.isLoading then None
      else Substitute(Pass(cur, es[0]), es[1..])
  }

  lemma BlocksAtShift(cur: string, es: Variables, i: int)
    requires 1 <= i < |es|
    ensures BlocksAt(cur, es, i) <==> BlocksAt(Pass(cur, es[0]), es[1..], i - 1)
  {
    assert es[..i][0] == es[0];
    assert es[..i][1..] == es[1..][..i - 1];
  }

  /**
   The loop stops with no result exactly when some loading entry's pattern occurs in the
   text built so far; otherwise it returns what the replace steps produce in order.
   */
  lemma {:induction false} SubstituteIsUnblockedRun(cur: string, es: Variables)
    ensures Substitute(cur, es).None? <==> exists i :: BlocksAt(cur, es, i)
    ensures Substitute(cur, es).Some? ==> Substitute(cur, es).value == RunPasses(cur, es)
    decreases |es|
  {
    if |es| > 0 {
      var p := Pattern(es[0].0);
      var next := Pass(cur, es[0]);
      assert es[..0] == [];
      if !Contains(cur, p) || !es[0].1.isLoading {
        SubstituteIsUnblockedRun(next, es[1..]);
        assert !BlocksAt(cur, es, 0);
        if exists i :: BlocksAt(cur, es, i) {
          var i :| BlocksAt(cur, es, i);
          BlocksAtShift(cur, es, i);
          assert BlocksAt(next, es[1..], i - 1);
        }
        if exists i :: BlocksAt(next, es[1..], i) {
          var i :| BlocksAt(next, es[1..], i);
          BlocksAtShift(cur, es, i + 1);
          assert BlocksAt(cur, es, i + 1);
        }
      } else {
        assert BlocksAt(cur, es, 0);
      }
    }
  }

  /**
   `evaluateTemplate(s, variables, timespan)`: no query for an absent or empty template;
   otherwise the left-to-right substitution over the store followed by the two interval
   variables, which comes out undefined exactly when a loading variable is met.
   */
  function EvaluateTemplate(s: Option<string>, vars: Variables, timespan: nat): (r: Option<string>)
    ensures s.None? || s == Some("") ==> r.None?
    ensures s.Some? && s.value != "" ==>
              (r.None? <==> exists i :: BlocksAt(s.value, WithIntervals(vars, timespan), i))
    ensures r.Some? ==> r.value == RunPasses(s.value, WithIntervals(vars, timespan))
    ensures s.Some? && s.value != "" && '$' !in s.value ==> r == s
  {
    match s
    case None => None
    case Some(text) =>
      if text == "" then None
      else
        var es := WithIntervals(vars, timespan);
        SubstituteIsUnblockedRun(text, es);
        Substitute(text, es)
  }

  lemma EvaluateIsSubstitute(s: string, vars: Variables, timespan: nat)
    requires s != ""
    ensures EvaluateTemplate(Some(s), vars, timespan) == Substitute(s, WithIntervals(vars, timespan))
  {
  }

  /** With no variable loading, a non-empty template always resolves. */
  lemma NothingLoadingAlwaysResolves(s: string, vars: Variables, timespan: nat)
    requires s != ""
    requires forall i :: 0 <= i < |vars| ==> !vars[i].1.isLoading
    ensures EvaluateTemplate(Some(s), vars, timespan).Some?
  {
  }

  lemma {:induction false} SubstituteFirstReferenceLoading(cur: string, es: Variables, i: nat)
    requires i < |es| && es[i].1.isLoading && Contains(cur, Pattern(es[i].0))
    requires forall j :: 0 <= j < i ==> !Contains(cur, Pattern(es[j].0))
    ensures Substitute(cur, es).None?
    decreases i
  {
    if i > 0 {
      SubstituteFirstReferenceLoading(cur, es[1..], i - 1);
    }
  }

  /**
   A loading variable referenced by the template blocks evaluation when no variable
   visited before it is referenced.
   */
  lemma ReferencedLoadingBlocks(s: string, vars: Variables, timespan: nat, i: nat)
    requires i < |vars| && vars[i].1.isLoading && Contains(s, Pattern(vars[i].0))
    requires vars[i].0 != IntervalName && vars[i].0 != RateIntervalName
    requires forall j :: 0 <= j < i ==> !Contains(s, Pattern(vars[j].0))
    ensures EvaluateTemplate(Some(s), vars, timespan).None?
  {
    var es := WithIntervals(vars, timespan);
    var iv := IntervalVariable(timespan);
    assert es[i] == vars[i];
    SubstituteFirstReferenceLoading(s, es, i);
  }

  lemma {:induction false} SubstituteLoneReference(cur: string, es: Variables, i: nat)
    requires i < |es| && cur == Pattern(es[i].0) && !es[i].1.isLoading
    requires '$' !in ValueText(es[i].1)
    requires forall j :: 0 <= j < i ==> !Contains(cur, Pattern(es[j].0))
    ensures Substitute(cur, es) == Some(ValueText(es[i].1))
    decreases i
  {
    if i > 0 {
      SubstituteLoneReference(cur, es[1..], i - 1);
    } else {
      assert StartsWith(cur, cur);
      ReplaceAllWhole(cur, ValueText(es[0].1));
    }
  }

  lemma PatternContainsItself(name: string)
    ensures Contains(Pattern(name), Pattern(name))
  {
    assert StartsWith(Pattern(name), Pattern(name));
  }

  /** Neither interval pattern occurs inside the other. */
  lemma IntervalPatternsApart()
    ensures !Contains(Pattern(IntervalName), Pattern(RateIntervalName))
    ensures !Contains(Pattern(RateIntervalName), Pattern(IntervalName))
  {
    var p := Pattern(IntervalName);
    var q := Pattern(RateIntervalName);
    assert p[3] != q[3];
    assert !StartsWith(p, q) && !StartsWith(q, p);
    assert '$' !in p[1..] && '$' !in q[1..];
    AbsentFirstCharNotContained(p[1..], q);
    AbsentFirstCharNotContained(q[1..], p);
  }

  /**
   A template that is just the pattern of one of two names appended to the store in turn
   comes out as that entry's value, when nothing visited before it occurs in it.
   */
  lemma AppendedLoneReference(vars: Variables, first: string, second: string, v: Variable, target: string)
    requires first != second && (target == first || target == second)
    requires !Contains(Pattern(target), Pattern(if target == first then second else first))
    requires forall j :: 0 <= j < |vars| ==> !Contains(Pattern(target), Pattern(vars[j].0))
    requires !v.isLoading && '$' !in ValueText(v)
    ensures Substitute(Pattern(target), Put(Put(vars, first, v), second, v)) == Some(ValueText(v))
  {
    var es1 := Put(vars, first, v);
    var es := Put(es1, second, v);
    PatternContainsItself(target);
    assert target !in Keys(vars);
    PutInPlace(es1, second, v);
    if target == first {
      PutAppendsNewKey(vars, first, v);
      var i := |vars|;
      assert es1[i] == (first, v);
      assert es[i] == (first, v);
      assert forall j :: 0 <= j < i ==> es[j].0 == vars[j].0;
      SubstituteLoneReference(Pattern(target), es, i);
    } else {
      PutAppendsNewKey(es1, second, v);
      PutInPlace(vars, first, v);
      assert second !in Keys(es1);
      var i := |es1|;
      assert es[i] == (second, v);
      forall j | 0 <= j < i
        ensures !Contains(Pattern(target), Pattern(es[j].0))
      {
        assert es[j] == es1[j];
        if j >= |vars| {
          PutAppendsNewKey(vars, first, v);
          assert es1[j].0 == first;
        }
      }
      SubstituteLoneReference(Pattern(target), es, i);
    }
  }

  /**
   `$__interval` and `$__rate_interval` each become the `"<n>m"` interval text, unless
   a store variable whose pattern occurs inside them is visited first.
   */
  lemma IntervalVariablesSubstituted(vars: Variables, timespan: nat, name: string)
    requires name == IntervalName || name == RateIntervalName
    requires forall j :: 0 <= j < |vars| ==> !Contains(Pattern(name), Pattern(vars[j].0))
    ensures EvaluateTemplate(Some(Pattern(name)), vars, timespan) == Some(IntervalText(timespan))
  {
    IntervalPatternsApart();
    EvaluateIsSubstitute(Pattern(name), vars, timespan);
    AppendedLoneReference(vars, IntervalName, RateIntervalName, IntervalVariable(timespan), name);
  }

  /** One hour of data gives the floor of five minutes; ten hours give twenty. */
  lemma IntervalExamples()
    ensures IntervalText(3600000) == "5m"
    ensures IntervalText(36000000) == "20m"
  {
  }

  /**
   A template made of one variable's pattern and a `$`-free tail, when that variable is
   visited first, becomes the variable's value followed by the tail.
   */
  lemma LeadingReference(k: string, tail: string, es: Variables)
    requires |es| > 0 && es[0].0 == k && !es[0].1.isLoading
    requires '$' !in tail && '$' !in ValueText(es[0].1)
    ensures Substitute(Pattern(k) + tail, es) == Some(ValueText(es[0].1) + tail)
  {
  }

  /** The entry visited first is the store's first entry, unless it is an interval name. */
  lemma FirstVisited(vars: Variables, timespan: nat)
    requires |vars| > 0 && vars[0].0 != IntervalName && vars[0].0 != RateIntervalName
    ensures |WithIntervals(vars, timespan)| > 0 && WithIntervals(vars, timespan)[0] == vars[0]
  {
  }

  lemma ShorterNameFirst(k: string, suffix: string, a: Variable, b: Variable, timespan: nat)
    requires k != IntervalName && k != RateIntervalName
    requires !a.isLoading && '$' !in suffix && '$' !in ValueText(a)
    ensures EvaluateTemplate(Some(Pattern(k + suffix)), [(k, a), (k + suffix, b)], timespan)
            == Some(ValueText(a) + suffix)
  {
    var vars := [(k, a), (k + suffix, b)];
    FirstVisited(vars, timespan);
    assert Pattern(k) + suffix == Pattern(k + suffix);
    EvaluateIsSubstitute(Pattern(k + suffix), vars, timespan);
    LeadingReference(k, suffix, WithIntervals(vars, timespan));
  }

  lemma LongerNameFirst(n: string, k: string, a: Variable, b: Variable, timespan: nat)
    requires n != IntervalName && n != RateIntervalName
    requires !b.isLoading && '$' !in ValueText(b)
    ensures EvaluateTemplate(Some(Pattern(n)), [(n, b), (k, a)], timespan) == Some(ValueText(b))
  {
    var vars := [(n, b), (k, a)];
    FirstVisited(vars, timespan);
    EvaluateIsSubstitute(Pattern(n), vars, timespan);
    SubstituteLoneReference(Pattern(n), WithIntervals(vars, timespan), 0);
  }

  /**
   Without a word boundary, a name that is a prefix of another rewrites the front of the
   longer name's reference when it is visited first; visited the other way round, the
   longer reference gets its own value.
   */
  lemma PrefixNameRewritesLongerName(k: string, suffix: string, a: Variable, b: Variable, timespan: nat)
    requires k != IntervalName && k != RateIntervalName
    requires k + suffix != IntervalName && k + suffix != RateIntervalName
    requires !a.isLoading && !b.isLoading
    requires '$' !in suffix && '$' !in ValueText(a) && '$' !in ValueText(b)
    ensures EvaluateTemplate(Some(Pattern(k + suffix)), [(k, a), (k + suffix, b)], timespan)
            == Some(ValueText(a) + suffix)
    ensures EvaluateTemplate(Some(Pattern(k + suffix)), [(k + suffix, b), (k, a)], timespan)
            == Some(ValueText(b))
  {
    ShorterNameFirst(k, suffix, a, b, timespan);
    LongerNameFirst(k + suffix, k, a, b, timespan);
  }
}

=== FILE: variable_options.dfy ===
/**
 Option discovery for one dashboard variable (`SingleVariableDropdown_`): the rewrite of
 `label_values(A, B)` queries into `count(A) by (B)`, the request issued, the sorted
 option list built from the response, the loading/error flags, and the dropdown shown.
 */
module VariableOptions {
  import opened Wrappers
  import opened Strings
  import opened Sorting
  import opened OrderedMap
  import opened Template

  // ---------------------------------------------------------------------------
  // The rewrite `query.replace(/label_values\((.*), (.*)\)/, 'count($1) by ($2)')`
  // ---------------------------------------------------------------------------

  const LabelValuesOpen: string := "label_values("

  /** The characters a regular-expression `.` does not match. */
  predicate IsLineTerminator(c: char) {
    c == '\n' || c == '\r' || c == '\U{2028}' || c == '\U{2029}'
  }

  /** `q[lo..hi]` can be matched by `.*`. */
  ghost predicate NoTerminator(q: string, lo: int, hi: int) {
    forall k :: lo <= k < hi && 0 <= k < |q| ==> !IsLineTerminator(q[k])
  }

  /** A `", "` starts at index `k` of `q`. */
  predicate SeparatorAt(q: string, k: int) {
    0 <= k && k + 2 <= |q| && q[k..k + 2] == ", "
  }

  /**
   The pattern matches `q[i..b + 1]` with group 1 `q[i + 13..a]` and group 2 `q[a + 2..b]`.
   */
  ghost predicate IsMatch(q: string, i: int, a: int, b: int) {
    && 0 <= i && i + |LabelValuesOpen| <= a && a + 2 <= b < |q|
    && q[i..i + |LabelValuesOpen|] == LabelValuesOpen
    && SeparatorAt(q, a) && q[b] == ')'
    && NoTerminator(q, i + |LabelValuesOpen|, a) && NoTerminator(q, a + 2, b)
  }

  /**
   The match the regular-expression engine reports: the leftmost start, and at that start
   the longest group 1 and then the longest group 2 (greedy backtracking order).
   */
  ghost predicate IsChosenMatch(q: string, i: int, a: int, b: int) {
    && IsMatch(q, i, a, b)
    && (forall i', a', b' :: 0 <= i' < i ==> !IsMatch(q, i', a', b'))
    && (forall a', b' :: IsMatch(q, i, a', b') ==> a' < a || (a' == a && b' <= b))
  }

  /** The text the replacement `count($1) by ($2)` puts in place of the match. */
  function Replaced(q: string, i: nat, a: nat, b: nat): string
    requires i + |LabelValuesOpen| <= a && a + 2 <= b < |q|
  {
    q[..i] + "count(" + q[i + |LabelValuesOpen|..a] + ") by (" + q[a + 2..b] + ")" + q[b + 1..]
  }

  /** The first line terminator at or after `j`, or the end of `q`. */
  function LineEnd(q: string, j: nat): (e: nat)
    requires j <= |q|
    ensures j <= e <= |q| && NoTerminator(q, j, e)
    ensures e < |q| ==> IsLineTerminator(q[e])
    decreases |q| - j
  {
    if j == |q| || IsLineTerminator(q[j]) then j else LineEnd(q, j + 1)
  }

  /** The last `)` in `q[lo..hi]`. */
  function LastCloseParen(q: string, lo: nat, hi: nat): (r: Option<nat>)
    requires lo <= hi <= |q|
    ensures r.Some? ==> lo <= r.value < hi && q[r.value] == ')'
    ensures r.Some? ==> forall k :: r.value < k < hi ==> q[k] != ')'
    ensures r.None? ==> forall k :: lo <= k < hi ==> q[k] != ')'
    decreases hi - lo
  {
    if hi == lo then None
    else if q[hi - 1] == ')' then Some(hi - 1)
    else LastCloseParen(q, lo, hi - 1)
  }

  /** The last `", "` lying wholly inside `q[lo..hi]`. */
  function LastSeparator(q: string, lo: nat, hi: nat): (r: Option<nat>)
    requires lo <= hi <= |q|
    ensures r.Some? ==> lo <= r.value && r.value + 2 <= hi && SeparatorAt(q, r.value)
    ensures r.Some? ==> forall k :: r.value < k && k + 2 <= hi ==> !SeparatorAt(q, k)
    ensures r.None? ==> forall k :: lo <= k && k + 2 <= hi ==> !SeparatorAt(q, k)
    decreases hi - lo
  {
    if hi < lo + 2 then None
    else if q[hi - 2..hi] == ", " then Some(hi - 2)
    else LastSeparator(q, lo, hi - 1)
  }

  /** A match ends before the end of the line its group 1 starts on. */
  lemma MatchStaysOnLine(q: string, i: nat, a: int, b: int)
    requires IsMatch(q, i, a, b)
    ensures b < LineEnd(q, i + |LabelValuesOpen|)
  {
    forall k | i + |LabelValuesOpen| <= k <= b
      ensures !IsLineTerminator(q[k])
    {
      if a <= k < a + 2 {
        assert q[k] == q[a..a + 2][k - a];
      }
    }
  }

  /** The greedy match of the pattern at start `i`, when there is one. */
  function MatchAt(q: string, i: nat): (r: Option<(nat, nat)>)
    requires i + |LabelValuesOpen| <= |q| && q[i..i + |LabelValuesOpen|] == LabelValuesOpen
    ensures r.Some? ==> IsMatch(q, i, r.value.0, r.value.1)
    ensures r.Some? ==> forall a', b' :: IsMatch(q, i, a', b') ==>
                          a' < r.value.0 || (a' == r.value.0 && b' <= r.value.1)
    ensures r.None? ==> forall a', b' :: !IsMatch(q, i, a', b')
  {
    var j := i + |LabelValuesOpen|;
    var e := LineEnd(q, j);
    match LastCloseParen(q, j, e)
    case None =>
      forall a', b' | IsMatch(q, i, a', b')
        ensures false
      {
        MatchStaysOnLine(q, i, a', b');
      }
      None
    case Some(b) =>
      match LastSeparator(q, j, b)
      case None =>
        forall a', b' | IsMatch(q, i, a', b')
          ensures false
        {
          MatchStaysOnLine(q, i, a', b');
        }
        None
      case Some(a) =>
        forall a', b' | IsMatch(q, i, a', b')
          ensures a' < a || (a' == a && b' <= b)
        {
          MatchStaysOnLine(q, i, a', b');
        }
        Some((a, b))
  }

  /** The leftmost match starting at or after `from`. */
  function FindMatch(q: string, from: nat): (r: Option<(nat, nat, nat)>)
    ensures r.Some? ==> from <= r.value.0 && IsMatch(q, r.value.0, r.value.1, r.value.2)
    ensures r.Some? ==> forall i', a', b' :: from <= i' < r.value.0 ==> !IsMatch(q, i', a', b')
    ensures r.Some? ==> forall a', b' :: IsMatch(q, r.value.0, a', b') ==>
                          a' < r.value.1 || (a' == r.value.1 && b' <= r.value.2)
    ensures r.None? ==> forall i', a', b' :: from <= i' ==> !IsMatch(q, i', a', b')
    decreases |q| - from
  {
    if from + |LabelValuesOpen| > |q| then None
    else if q[from..from + |LabelValuesOpen|] == LabelValuesOpen && MatchAt(q, from).Some? then
      Some((from, MatchAt(q, from).value.0, MatchAt(q, from).value.1))
    else
      var r := FindMatch(q, from + 1);
      assert forall a', b' :: !IsMatch(q, from, a', b');
      r
  }

  /**
   The query sent for a variable's options: the first `label_values(A, B)` the pattern
   matches becomes `count(A) by (B)`; a query the pattern does not match is sent as is.
   */
  function RewriteLabelValues(q: string): (r: string)
    ensures (forall i, a, b :: !IsMatch(q, i, a, b)) ==> r == q
    ensures forall i, a, b :: IsChosenMatch(q, i, a, b) ==> r == Replaced(q, i, a, b)
    ensures (exists i, a, b :: IsMatch(q, i, a, b)) ==> exists i, a, b :: IsChosenMatch(q, i, a, b)
  {
    match FindMatch(q, 0)
    case None => q
    case Some((i, a, b)) =>
      forall i', a', b' | IsChosenMatch(q, i', a', b')
        ensures i' == i && a' == a && b' == b
      {
      }
      assert IsChosenMatch(q, i, a, b);
      Replaced(q, i, a, b)
  }

  /** The chosen match is unique. */
  lemma ChosenMatchUnique(q: string, i: int, a: int, b: int, i': int, a': int, b': int)
    requires IsChosenMatch(q, i, a, b) && IsChosenMatch(q, i', a', b')
    ensures i == i' && a == a' && b == b'
  {
  }

  /** A query without `label_values(` in it is never rewritten. */
  lemma WithoutLabelValuesUnchanged(q: string)
    requires !Contains(q, LabelValuesOpen)
    ensures RewriteLabelValues(q) == q
  {
    forall i, a, b | IsMatch(q, i, a, b)
      ensures false
    {
      assert OccursAt(q, LabelValuesOpen, i);
    }
  }

  ghost predicate SingleLine(s: string) {
    forall k :: 0 <= k < |s| ==> !IsLineTerminator(s[k])
  }

  lemma CanonicalIsMatch(q: string, A: string, B: string)
    requires q == LabelValuesOpen + A + ", " + B + ")"
    requires SingleLine(A) && SingleLine(B)
    ensures IsMatch(q, 0, |LabelValuesOpen| + |A|, |q| - 1)
    ensures Replaced(q, 0, |LabelValuesOpen| + |A|, |q| - 1) == "count(" + A + ") by (" + B + ")"
  {
    var n := |LabelValuesOpen|;
    var a := n + |A|;
    var b := |q| - 1;
    assert q[..n] == LabelValuesOpen;
    assert q[n..a] == A;
    assert q[a..a + 2] == ", ";
    assert q[a + 2..b] == B;
    assert q[b + 1..] == "";
  }

  lemma CanonicalIsGreedy(q: string, A: string, B: string, a': int, b': int)
    requires q == LabelValuesOpen + A + ", " + B + ")"
    requires !Contains(B, ", ")
    requires IsMatch(q, 0, a', b')
    ensures a' <= |LabelValuesOpen| + |A|
  {
    var a := |LabelValuesOpen| + |A|;
    assert q[a + 1] == ' ';
    assert q[a'] == q[a'..a' + 2][0] == ',';
    assert q[a + 2..|q| - 1] == B;
    if a' > a + 1 {
      var k := a' - (a + 2);
      assert q[a'..a' + 2] == q[a + 2..|q| - 1][k..k + 2];
      assert OccursAt(B, ", ", k);
    }
  }

  /**
   `label_values(A, B)` on one line, with no `", "` inside `B`, becomes `count(A) by (B)`;
   `A` may itself hold `", "`, since group 1 takes the longest text it can.
   */
  lemma CanonicalLabelValuesRewritten(A: string, B: string)
    requires SingleLine(A) && SingleLine(B) && !Contains(B, ", ")
    ensures RewriteLabelValues(LabelValuesOpen + A + ", " + B + ")") == "count(" + A + ") by (" + B + ")"
  {
    var q := LabelValuesOpen + A + ", " + B + ")";
    var a := |LabelValuesOpen| + |A|;
    var b := |q| - 1;
    CanonicalIsMatch(q, A, B);
    forall a', b' | IsMatch(q, 0, a', b')
      ensures a' < a || (a' == a && b' <= b)
    {
      CanonicalIsGreedy(q, A, B, a', b');
    }
    assert IsChosenMatch(q, 0, a, b);
  }

  // ---------------------------------------------------------------------------
  // Options from the response
  // ---------------------------------------------------------------------------

  /** One series' `metric` object: label name to label value. */
  type LabelSet = seq<(string, string)>

  function LabelCount(series: seq<LabelSet>): nat {
    if |series| == 0 then 0 else |series[0]| + LabelCount(series[1..])
  }

  /** `_.values(metric)`: one series' label values, in order. */
  function Values(labels: LabelSet): seq<string> {
    seq(|labels|, k requires 0 <= k < |labels| => labels[k].1)
  }

  /**
   Label `j` of series `i` sits in `r` at its place in reading order: after the labels of
   every earlier series.
   */
  ghost predicate ValuesInPlace(series: seq<LabelSet>, r: seq<string>) {
    forall i, j :: 0 <= i < |series| && 0 <= j < |series[i]| ==>
      LabelCount(series[..i]) + j < |r| && r[LabelCount(series[..i]) + j] == series[i][j].1
  }

  lemma LabelCountPrefix(series: seq<LabelSet>, i: nat)
    requires 0 < i <= |series|
    ensures LabelCount(series[..i]) == |series[0]| + LabelCount(series[1..][..i - 1])
  {
    assert series[..i][1..] == series[1..][..i - 1];
  }

  /** Putting the first series' values in front of the rest's keeps every value in place. */
  lemma ValuesInPlaceCons(series: seq<LabelSet>, rest: seq<string>)
    requires |series| > 0 && ValuesInPlace(series[1..], rest)
    ensures ValuesInPlace(series, Values(series[0]) + rest)
  {
    var head := Values(series[0]);
    forall i, j | 0 <= i < |series| && 0 <= j < |series[i]|
      ensures LabelCount(series[..i]) + j < |head + rest|
      ensures (head + rest)[LabelCount(series[..i]) + j] == series[i][j].1
    {
      if i == 0 {
        assert series[..i] == [];
        assert (head + rest)[j] == head[j];
      } else {
        LabelCountPrefix(series, i);
        var tail := series[1..];
        assert tail[i - 1][j] == series[i][j];
        var m := LabelCount(tail[..i - 1]) + j;
        assert m < |rest| && rest[m] == tail[i - 1][j].1;
        assert (head + rest)[|head| + m] == rest[m];
      }
    }
  }

  /** `_.flatMap(series, ({ metric }) => _.values(metric))`. */
  function LabelValues(series: seq<LabelSet>): (r: seq<string>)
    ensures |r| == LabelCount(series)
    ensures forall i, j :: 0 <= i < |series| && 0 <= j < |series[i]| ==> series[i][j].1 in r
    ensures forall x :: x in r ==> exists i, j :: 0 <= i < |series| && 0 <= j < |series[i]| && series[i][j].1 == x
    ensures ValuesInPlace(series, r)
  {
    if |series| == 0 then []
    else
      var head := Values(series[0]);
      var rest := LabelValues(series[1..]);
      ValuesInPlaceCons(series, rest);
      forall i, j | 0 <= i < |series| && 0 <= j < |series[i]|
        ensures series[i][j].1 in head + rest
      {
        if i == 0 {
          assert head[j] == series[i][j].1;
        } else {
          assert series[1..][i - 1][j].1 in rest;
        }
      }
      forall x | x in head + rest
        ensures exists i, j :: 0 <= i < |series| && 0 <= j < |series[i]| && series[i][j].1 == x
      {
        if x in head {
          var k :| 0 <= k < |head| && head[k] == x;
          assert series[0][k].1 == x;
        } else {
          var i, j :| 0 <= i < |series[1..]| && 0 <= j < |series[1..][i]| && series[1..][i][j].1 == x;
          assert series[i + 1][j].1 == x;
        }
      }
      head + rest
  }

  /**
   The new options for a variable: every label value of every returned series (none when
   the response has no result), sorted, with repeated values kept.
   */
  function ExtractOptions(result: Option<seq<LabelSet>>): (r: seq<string>)
    ensures multiset(r) == multiset(LabelValues(result.GetOr([])))
    ensures |r| == LabelCount(result.GetOr([]))
    ensures SortedBy(r, Identity)
  {
    SortStrings(LabelValues(result.GetOr([])))
  }

  /** Any sorted arrangement of the label values is exactly the option list. */
  lemma ExtractOptionsIsTheSortedArrangement(result: Option<seq<LabelSet>>, s: seq<string>)
    requires SortedBy(s, Identity) && multiset(s) == multiset(LabelValues(result.GetOr([])))
    ensures ExtractOptions(result) == s
  {
    SortedPermutationUnique(ExtractOptions(result), s);
  }

  /** Two series carrying the same value give that value twice: nothing is de-duplicated. */
  lemma RepeatedValuesKept(name: string, v: string)
    ensures ExtractOptions(Some([[(name, v)], [(name, v)]])) == [v, v]
  {
    var series := [[(name, v)], [(name, v)]];
    var values := LabelValues(series);
    assert values == [v] + ([v] + []) by {
      assert LabelValues(series[1..][1..]) == [];
    }
    LexLeReflexive(v);
    assert SortedBy([v, v], Identity);
    ExtractOptionsIsTheSortedArrangement(Some(series), [v, v]);
  }

  // ---------------------------------------------------------------------------
  // The effect that fetches options, and the dropdown
  // ---------------------------------------------------------------------------

  /** The change a `patchVariable` action carries. */
  datatype Patch = LoadingPatch(isLoading: bool) | ValuePatch(value: string)

  /** Store actions the dropdown dispatches; the reducers that apply them are not modelled. */
  datatype Action =
    | PatchVariable(name: string, patch: Patch)
    | OptionsLoaded(name: string, options: seq<string>)

  /** The range query issued for options. */
  datatype Request = Request(query: string, samples: nat, timeout: string, timespan: nat)

  /** How an options fetch ended: a response, or an error with its `name`. */
  datatype FetchOutcome = Fetched(result: Option<seq<LabelSet>>) | FetchFailed(errorName: string)

  const AbortErrorName: string := "AbortError"
  const OptionsTimeout: string := "30s"

  /** The `query` property the dropdown receives: its own query, evaluated against the store. */
  function DropdownQuery(vars: Variables, name: string, timespan: nat): (r: Option<string>)
    ensures Get(vars, name).None? ==> r.None?
    ensures Get(vars, name).Some? ==> r == EvaluateTemplate(Get(vars, name).value.query, vars, timespan)
  {
    match Get(vars, name)
    case None => None
    case Some(v) => EvaluateTemplate(v.query, vars, timespan)
  }

  /**
   What the effect does when its query changes: with a non-empty query, the variable is
   marked loading and a request for the rewritten query is issued; otherwise nothing.
   */
  function StartOptionsFetch(name: string, query: Option<string>, timespan: nat): (r: (Option<Request>, seq<Action>))
    ensures r.0.Some? <==> query.Some? && query.value != ""
    ensures r.0.Some? ==> r.0.value == Request(RewriteLabelValues(query.value), NumSamples, OptionsTimeout, timespan)
    ensures r.0.Some? ==> r.1 == [PatchVariable(name, LoadingPatch(true))]
    ensures r.0.None? ==> r.1 == []
  {
    match query
    case Some(q) =>
      if q != "" then
        (Some(Request(RewriteLabelValues(q), NumSamples, OptionsTimeout, timespan)),
         [PatchVariable(name, LoadingPatch(true))])
      else (None, [])
    case None => (None, [])
  }

  /**
   What happens when the fetch ends: a response clears the error and hands the sorted
   options over; a failure clears the loading flag, and raises the error flag unless the
   request was aborted, in which case the flag keeps its value.
   */
  function SettleOptionsFetch(name: string, isError: bool, outcome: FetchOutcome): (r: (bool, seq<Action>))
    ensures r.0 <==> (outcome.FetchFailed? && (outcome.errorName != AbortErrorName || isError))
    ensures outcome.Fetched? ==> r.1 == [OptionsLoaded(name, ExtractOptions(outcome.result))]
    ensures outcome.FetchFailed? ==> r.1 == [PatchVariable(name, LoadingPatch(false))]
  {
    match outcome
    case Fetched(result) => (false, [OptionsLoaded(name, ExtractOptions(result))])
    case FetchFailed(errorName) =>
      (if errorName != AbortErrorName then true else isError, [PatchVariable(name, LoadingPatch(false))])
  }

  /** Choosing an entry in the dropdown sets the variable's value. */
  function SelectOption(name: string, option: string): (a: Action)
    ensures a.name == name && a.PatchVariable? && a.patch == ValuePatch(option)
  {
    PatchVariable(name, ValuePatch(option))
  }

  /**
   A variable whose query references a loading variable, with nothing visited earlier
   referenced, issues no request.
   */
  lemma LoadingReferenceIssuesNoRequest(vars: Variables, name: string, timespan: nat, i: nat)
    requires Get(vars, name).Some? && Get(vars, name).value.query.Some?
    requires i < |vars| && vars[i].1.isLoading
    requires vars[i].0 != IntervalName && vars[i].0 != RateIntervalName
    requires Contains(Get(vars, name).value.query.value, Pattern(vars[i].0))
    requires forall j :: 0 <= j < i ==> !Contains(Get(vars, name).value.query.value, Pattern(vars[j].0))
    ensures StartOptionsFetch(name, DropdownQuery(vars, name, timespan), timespan).0.None?
  {
    ReferencedLoadingBlocks(Get(vars, name).value.query.value, vars, timespan, i);
  }

  /** What the variable's slot in the toolbar shows. */
  datatype DropdownView =
    | NoDropdown
    | ErrorDropdown
    | OptionsDropdown(items: set<string>, selected: Option<string>)

  /**
   Nothing for a hidden variable or one without options (unless its fetch failed); a
   disabled error toggle after a failure; otherwise the options with the current value.
   */
  function VariableDropdownView(v: Variable, isError: bool): (r: DropdownView)
    ensures r.NoDropdown? <==> v.isHidden || (!isError && |v.options| == 0)
    ensures r.ErrorDropdown? <==> !v.isHidden && isError
    ensures r.OptionsDropdown? ==> (forall o :: o in r.items <==> o in v.options) && r.selected == v.value
  {
    if v.isHidden || (!isError && |v.options| == 0) then NoDropdown
    else if isError then ErrorDropdown
    else OptionsDropdown((set o | o in v.options), v.value)
  }
}

=== FILE: wrappers.dfy ===
/** The optional value used wherever the dashboard code has `undefined`. */
module Wrappers {

  datatype Option<+T> = None | Some(value: T) {

    /** The wrapped value, or `default` when there is none (JavaScript's `x ?? default`). */
    function GetOr(default: T): T {
      match this
      case Some(v) => v
      case None => default
    }
  }
}
